=== FILE: README.md ===
# Stanbic Bank IPN reconciliation — a Dafny model

This project models the core of an Acumatica integration for Stanbic Bank instant payment
notifications. It has three parts.

- **Webhook ingest.** The bank calls the webhook with a JSON notification. The handler splits
  the amount text ("KES 1.00") into currency and amount. It answers a transaction id that is
  already staged as a duplicate. Otherwise it stages a new `StanbicBankTxn` record with status
  "New".
- **Reconciliation screen.** An operator matches one staged transaction to the customer's open
  invoices. The `invoiceApplications` view delegate proposes an oldest-first greedy
  allocation. The operator can then tick and untick lines, type amounts, which are checked, and
  clear the selection. `TotalApplied` and `Unallocated` are recomputed after each of these.
  "Create Payment" checks its gates and required fields, then posts an AR payment with one
  application line per selected invoice. On failure it stores an error text of at most 500
  characters.
- **Batch screen.** Each selected staged transaction becomes its own payment. A failure marks
  that transaction "Error" and the loop goes on. The batch reports an error if any item failed.

Modules, one file each:

| file | module | contents |
|---|---|---|
| `wrappers.dfy` | `Wrappers` | `Option`, `Result`, `Outcome` |
| `text.dfy` | `Text` | `string.IsNullOrWhiteSpace`, `Split(char)` with its join round trips, `Join`, `Substring(0, n)` truncation |
| `records.dfy` | `Records` | the staged record, the payment request, the ledger as oracles, the status update |
| `allocation.dfy` | `Allocation` | lines, the line and session invariants, totals, auto-allocation, the selection and amount handlers, clearing |
| `session.dfy` | `Session` | arbitrary sequences of operator actions and the invariant they keep |
| `recon.dfy` | `Recon` | the view delegate's totals, the button predicates, error text, `GetFullErrorMessage`, "Create Payment" |
| `webhook.dfy` | `Webhook` | amount parsing, `ProcessWebhook`, `HandleAsync`, idempotent ingest |
| `batch.dfy` | `Batch` | `ProcessTransactions` and its functional reference |

Conventions:

- Amounts are C# `decimal` fields with four decimal places. They are modelled as `int` in
  ten-thousandths, so 100.0000 is `1000000`.
- A string field that the code only tests with `string.IsNullOrEmpty` is a `string`, with ""
  standing for `null`. Every other nullable field is an `Option`.
- An invoice line's null `PaymentStatus` is `NoFill`.
- Anything the code calls but that is not part of this model is a parameter. That covers the
  ledger graph (`ARPaymentEntry`), the JSON deserializer, `decimal.TryParse` and the staging
  insert. Each is an oracle (a function value), so every property holds for every possible
  behaviour of them.

The central invariant is `Allocation.SessionOk`:

- every line has `0 <= CuryApplAmt <= CuryDocBal`;
- every line has `RemainingBalance = CuryDocBal - CuryApplAmt`;
- every line's status agrees with its amounts;
- the selected lines together apply at most `TransAmount`.

Every operator action keeps it (`Session.StepKeepsSessionOk`, `Session.RunKeepsSessionOk`).
Opening the screen establishes it only under conditions:

- `TransAmount` must not be negative. The webhook can stage a negative amount, because
  `Webhook.ParseTransAmount` keeps whatever sign the parse returns.
- The walk must be the corrected one (`Allocation.AllocateCorrected`), or the screen must hold
  no cached lines (`Recon.FreshViewIsSound`). The walk as written, with cached lines, can apply
  more than the payment (see Findings). `Session.OpenedSessionStaysOk` is stated for the
  corrected walk.

A created payment applies at most the transaction amount whenever the lines it is built from
keep the invariant (`Recon.CreatedPaymentStaysWithinAmount`).

Behaviour of the code that a reader might not expect:

- The webhook writes status 200 and a text body for every non-blank body. A blank body gets
  no status and no body. There are no 400 or 500 responses, no missing-correlation-id error,
  no stripping of thousands separators and no rollback.
- "Create Payment" builds its stored error from `ex.Message` and at most one inner message.
  The helper `GetFullErrorMessage`, which joins the whole exception chain, is defined but
  never called. It is modelled on its own as `Recon.GetFullErrorMessage`.
- Its field checks throw before its `try` block. A missing field therefore leaves the status
  unchanged instead of setting "Error".
- It leaves `ExtRefNbr` unset, because those lines are commented out. It takes `DocDesc` from
  the transaction's payment details.
- The "Create Payment" button does not look at the payment method or the amount. The action
  itself still refuses either when missing (`Recon.EnabledButtonChecks`).
- A ticked zero-balance line is marked "Full" with nothing applied.
- The amount handlers do not look at `Selected`, so an amount typed into an unticked line is
  stored but not counted. The screen disables the cell for such lines, but the model does not
  rely on that.
- The staged record's file in the repository lists only the webhook's fields. The payment
  fields (`CustomerID`, `PaymentMethodID`, `CashAccountID`, `AdjDate`, `AdjFinPeriodID`,
  `PaymentDetails`, `InvoiceRefNbr`, `PaymentDocType`, `PaymentRefNbr`, `ErrorMessage`) are
  taken from their use in the two screens.

## Model

| member | source | states |
|---|---|---|
| Text.Split | StanbicBankIntegration/StanbicWebhookHandler.cs:62 | `Split(' ')` always yields at least one piece, and no piece contains the separator |
| Text.JoinSplit | StanbicBankIntegration/StanbicWebhookHandler.cs:62 | splitting loses nothing: joining the pieces with the separator gives back the original text |
| Text.SplitJoin | StanbicBankIntegration/StanbicWebhookHandler.cs:62 | separator-free pieces survive a join followed by a split, the other direction of the round trip |
| Text.SplitAtFirstSeparator | StanbicBankIntegration/StanbicWebhookHandler.cs:62-65 | the first piece is the text before the first separator; the remaining pieces are the split of the text after it |
| Text.FirstPiece | StanbicBankIntegration/StanbicWebhookHandler.cs:62-66 | the first piece is the longest separator-free prefix |
| Text.IsNullOrWhiteSpace | StanbicBankIntegration/StanbicWebhookHandler.cs:21 | the front-to-back scan finds a body blank exactly when every character is Unicode white space; the empty body is blank |
| Text.Join | StanbicBankIntegration/StanbicPaymentRecon.cs:707 | joining no pieces gives ""; otherwise the result starts with the first piece |
| Text.JoinLength | StanbicBankIntegration/StanbicPaymentRecon.cs:707 | a join holds every piece and one separator between each two pieces, and nothing more |
| Text.Truncate | StanbicBankIntegration/StanbicPaymentRecon.cs:568 | the result is a prefix of the input; it equals the input when that has at most `n` characters, and otherwise has exactly `n` |
| Records.SetStatus | StanbicBankIntegration/StanbicReconProcess.cs:62-65 | the update by `TransID` changes only that record's status; no record is added or removed; an unknown id changes nothing |
| Allocation.AppliedExcludingSelf | StanbicBankIntegration/StanbicPaymentRecon.cs:710-724 | with unique keys, "selected total excluding this line" equals the selected total minus this line's own contribution |
| Allocation.AppliedExcluding | StanbicBankIntegration/StanbicPaymentRecon.cs:710-724 | the total of the selected lines with another key, plus the selected amount under the row's own key, is the whole selected total |
| Allocation.Available | StanbicBankIntegration/StanbicPaymentRecon.cs:726-733 | what is left for a row is `TransAmount` minus the whole selected total, plus what the lines under the row's own key already hold |
| Allocation.CalculateTotals | StanbicBankIntegration/StanbicPaymentRecon.cs:735-751 | the loop sums `CuryApplAmt` over the selected lines only; `Unallocated = TransAmount - TotalApplied`; both are non-negative under the session invariant |
| Allocation.FreshLine | StanbicBankIntegration/StanbicPaymentRecon.cs:74-118 | a new line gets `min(remaining, balance)` when both are positive and 0 otherwise; it is selected exactly when it gets money; with a non-negative balance it satisfies the line invariant |
| Allocation.Allocate | StanbicBankIntegration/StanbicPaymentRecon.cs:57-121 | one line per invoice, in query order; a cached line is returned unchanged; a new line keeps its invoice's key and balance, is selected iff it holds money, and is sound |
| Allocation.AllocateFreshTotal | StanbicBankIntegration/StanbicPaymentRecon.cs:57-128 | without cached lines, the applied total is `min(max(TransAmount, 0), sum of positive balances)`, and the running `totalApplied` equals the selected sum |
| Allocation.AllocateMatchesReference | StanbicBankIntegration/StanbicPaymentRecon.cs:89-116 | each line's amount equals an independent greedy definition: what is left after all earlier invoices are paid in full, capped by its own balance |
| Allocation.AllocateIsOldestFirst | StanbicBankIntegration/StanbicPaymentRecon.cs:89-110 | if a later invoice receives money, every earlier invoice with a positive balance is paid in full and marked "Full" |
| Allocation.AllocateSumBounds | StanbicBankIntegration/StanbicPaymentRecon.cs:63-109 | with cached lines, the selected total lies between what the cached lines hold and that amount plus what was left to allocate |
| Allocation.CachedLinesOverAllocate | StanbicBankIntegration/StanbicPaymentRecon.cs:63-109 | a concrete case where the walk as written applies 200.0000 against a 100.0000 payment; the corrected walk applies 100.0000 |
| Allocation.AllocateCorrected | StanbicBankIntegration/StanbicPaymentRecon.cs:57-121 | the corrected walk never applies more than the payment, unless the cached lines alone already hold more |
| Allocation.AllocateCorrectedWithoutCache | StanbicBankIntegration/StanbicPaymentRecon.cs:57-121 | with no cached lines the corrected walk and the walk as written agree |
| Allocation.AllocateCorrectedIsSessionOk | StanbicBankIntegration/StanbicPaymentRecon.cs:57-128 | opening the screen establishes the session invariant: every line sound, keys unique, selected total at most `TransAmount` |
| Allocation.FreshAllocationIsSessionOk | StanbicBankIntegration/StanbicPaymentRecon.cs:90-128 | after a fresh auto-allocation every line is within its balance, the payment is not overspent, and `Unallocated >= 0` |
| Allocation.SetSelected | StanbicBankIntegration/StanbicPaymentRecon.cs:294-325 | unticking empties the line; ticking gives the whole balance when available covers it and `max(0, available)` otherwise, where available is `TransAmount` minus the other selected lines (for a non-negative balance, `max(0, min(available, balance))`); the line is marked "Full" when available covers the balance (a zero balance included), "Partial" when some but not all is available, no status otherwise; the line stays ticked only if it got money or the balance fits; other lines are unchanged; remaining balance is kept right |
| Allocation.SetSelectedKeepsSessionOk | StanbicBankIntegration/StanbicPaymentRecon.cs:294-325 | ticking or unticking any line keeps the session invariant |
| Allocation.VerifyAmount | StanbicBankIntegration/StanbicPaymentRecon.cs:354-379 | an amount is accepted iff it is non-negative, at most the balance, and fits beside the other selected lines; the errors are reported in the code's order |
| Allocation.SetSelectedTakesLargestValidAmount | StanbicBankIntegration/StanbicPaymentRecon.cs:305-378 | the amount a ticked box receives passes the amount check, and every larger amount fails it |
| Allocation.EditAmount | StanbicBankIntegration/StanbicPaymentRecon.cs:333-379 | a refused amount changes nothing and reports the check's error; an accepted one is stored with `RemainingBalance = balance - amount`; "Full" iff `amount >= balance` and `amount > 0`, "Partial" iff `0 < amount < balance`, no status otherwise; other lines are unchanged |
| Allocation.EditAmountKeepsSessionOk | StanbicBankIntegration/StanbicPaymentRecon.cs:354-379 | every accepted amount keeps the line within its balance and the selected total within the payment |
| Allocation.ClearAllocation | StanbicBankIntegration/StanbicPaymentRecon.cs:623-641 | afterwards no line is selected, none holds money, keys and balances are kept, and the selected total (so `TotalApplied`) is 0 |
| Allocation.ClearAllocationResetsEveryLine | StanbicBankIntegration/StanbicPaymentRecon.cs:627-632 | on sound lines every line ends unselected, with 0 applied, no status and the whole balance remaining |
| Allocation.ClearAllocationKeepsSessionOk | StanbicBankIntegration/StanbicPaymentRecon.cs:623-641 | clearing keeps the session invariant |
| Session.Step | StanbicBankIntegration/StanbicPaymentRecon.cs:288-379 | every operator action keeps the number of lines, their keys and their balances |
| Session.StepKeepsSessionOk | StanbicBankIntegration/StanbicPaymentRecon.cs:288-379 | each handler (tick, amount, clear) keeps the session invariant |
| Session.RunKeepsSessionOk | StanbicBankIntegration/StanbicPaymentRecon.cs:288-379 | any sequence of operator actions keeps the session invariant |
| Session.OpenedSessionStaysOk | StanbicBankIntegration/StanbicPaymentRecon.cs:57-379 | from the opened screen through any actions, lines stay within their balances and the selection within the payment |
| Session.Operate | StanbicBankIntegration/StanbicPaymentRecon.cs:329-351 | after each action the recomputed `TotalApplied` is the selected sum, lies between 0 and `TransAmount`, and `Unallocated = TransAmount - TotalApplied` |
| Recon.InvoiceApplications | StanbicBankIntegration/StanbicPaymentRecon.cs:43-128 | no customer gives no lines; otherwise the lines and `TotalApplied` are exactly those of the walk as written (`Allocation.Allocate`), cached lines included, one line per open invoice, and `Unallocated = TransAmount - TotalApplied` |
| Recon.CreatePaymentEnabled | StanbicBankIntegration/StanbicPaymentRecon.cs:135-166 | the button is enabled iff the status is "New" or "Error" and the action's field checks pass once an amount and a payment method are filled in, so it needs customer, cash account and period; every committable transaction with all required fields has it enabled |
| Recon.ViewPaymentEnabled | StanbicBankIntegration/StanbicPaymentRecon.cs:135-166 | a "Processed" transaction with a payment reference has "View Payment" enabled; when it is enabled, "Create Payment" is not, and the action refuses to run whatever the lines and the ledger |
| Recon.MissingField | StanbicBankIntegration/StanbicPaymentRecon.cs:435-439 | nothing is missing iff customer, a positive amount, payment method, cash account and period are all present; a reported field is itself missing (no customer; no amount or one at most 0; empty payment method; no cash account; empty period), and every earlier check passed |
| Recon.FreshViewIsSound | StanbicBankIntegration/StanbicPaymentRecon.cs:57-128 | a freshly opened view is sound, applies `min(TransAmount, sum of positive balances)`, and leaves `Unallocated >= 0` |
| Recon.ErrorText | StanbicBankIntegration/StanbicPaymentRecon.cs:566-568 | the stored error is a prefix of `message [" \| " inner]`: the whole text when it has at most 500 characters, otherwise exactly its first 500; it starts with the message whenever the message fits |
| Recon.DistinctNonEmpty | StanbicBankIntegration/StanbicPaymentRecon.cs:686-705 | the kept messages are non-empty and pairwise distinct, and a message is kept iff it is non-empty and occurs in the chain |
| Recon.DistinctNonEmptySnoc | StanbicBankIntegration/StanbicPaymentRecon.cs:688-701 | messages are kept in order of first appearance: a new non-empty message goes after those already kept, and an empty or repeated one changes nothing |
| Recon.KeepDistinct | StanbicBankIntegration/StanbicPaymentRecon.cs:693-702 | the inner loop over a `PXOuterException`'s messages extends the kept list exactly as the distinct filter over the longer sequence |
| Recon.GetFullErrorMessage | StanbicBankIntegration/StanbicPaymentRecon.cs:681-708 | the nested loops produce the distinct non-empty messages of the whole chain, in order of first appearance, joined by " \| " |
| Recon.AdjustmentsFor | StanbicBankIntegration/StanbicPaymentRecon.cs:442-449 | an application line is in the result iff some line is selected with a positive amount and the application line carries that line's doc type, reference number and amount; every application line has a positive amount |
| Recon.AdjustmentsForConcat | StanbicBankIntegration/StanbicPaymentRecon.cs:442-449 | the filter keeps the order of the lines: a single line yields its application line iff it is funded, and the lines of two stretches follow one another |
| Recon.AdjustmentTotalIsSelectedSum | StanbicBankIntegration/StanbicPaymentRecon.cs:442-449 | on sound lines the application lines apply exactly the selected total |
| Recon.PaymentFor | StanbicBankIntegration/StanbicPaymentRecon.cs:470-507 | the payment carries the transaction's customer, payment method, cash account, amount and date, an empty `ExtRefNbr`, `DocDesc = PaymentDetails`, and the filtered application lines |
| Recon.FirstUnattachable | StanbicBankIntegration/StanbicPaymentRecon.cs:510-527 | the loop stops at the first line the ledger will not attach: every earlier line was attached; there is no such line iff the ledger attaches every line |
| Recon.CreatePayment | StanbicBankIntegration/StanbicPaymentRecon.cs:428-584 | no effect unless the status is "New" or "Error"; the first missing field is reported in the code's order and nothing is written; a prepare fault, the first refused line ("Could not add Invoice …") or a save fault is stored as that fault's truncated text with "Error", and raised as "Failed to create payment: " plus it, changing nothing else; when none of these happens the payment is created, recording "Processed" with its keys and clearing the error |
| Recon.CreatedPaymentStaysWithinAmount | StanbicBankIntegration/StanbicPaymentRecon.cs:442-537 | a created payment applies at most its own amount to invoices |
| Recon.CreatedIsFinal | StanbicBankIntegration/StanbicPaymentRecon.cs:428-558 | a processed transaction is never committed again and its "Create Payment" button is disabled; with a payment number, "View Payment" is enabled |
| Recon.FailedCanBeRetried | StanbicBankIntegration/StanbicPaymentRecon.cs:432-581 | a transaction left in "Error" is committed and becomes "Processed" once the ledger accepts the payment |
| Recon.EnabledButtonChecks | StanbicBankIntegration/StanbicPaymentRecon.cs:135-165 | an enabled button passes the status gate; the action can then refuse only a missing amount or payment method |
| Webhook.ParseTransAmount | StanbicBankIntegration/StanbicWebhookHandler.cs:58-69 | empty amount text gives 0 in "KES"; the currency is "KES" or a proper prefix of the text |
| Webhook.ParseWithoutSpace | StanbicBankIntegration/StanbicWebhookHandler.cs:60-68 | a single token is all amount, in "KES", and an unparsable token gives 0 |
| Webhook.ParseAtFirstSpace | StanbicBankIntegration/StanbicWebhookHandler.cs:62-67 | with a space, the currency is the text before the first space; the amount is parsed from the text between the first and second spaces; anything after is ignored |
| Webhook.ParseFormatted | StanbicBankIntegration/StanbicWebhookHandler.cs:57-69 | reading back a "currency amount" text gives that currency and the parse of that amount |
| Webhook.NewRecord | StanbicBankIntegration/StanbicWebhookHandler.cs:72-85 | the staged record has the payload's id, status "New", the raw body verbatim, and the parsed amount and currency |
| Webhook.ProcessWebhook | StanbicBankIntegration/StanbicWebhookHandler.cs:42-94 | existing records are never changed; the table changes only on a "Success" reply, and then only by the new record for the payload's id; the reply starts with "Success" iff the id was already staged or the insert succeeded; a known id gets "Success: Duplicate " + id; every exception is answered "Error: " + message with nothing staged |
| Webhook.HandleAsync | StanbicBankIntegration/StanbicWebhookHandler.cs:16-31 | a blank body stages nothing and writes no reply; any other body is processed and its reply written |
| Webhook.IngestIsIdempotent | StanbicBankIntegration/StanbicWebhookHandler.cs:46-88 | two sequential deliveries of one notification stage at most one record, the payload's; once the first delivery stages it or finds it, the second changes nothing and is answered as a duplicate, however its own insert would behave; a first delivery whose insert failed may be staged by the second |
| Batch.BatchRequest | StanbicBankIntegration/StanbicReconProcess.cs:36-56 | the payment is for the whole `TransAmount`, with `ExtRefNbr = TransID` and `DocDesc = "Stanbic " + TransID`; it has one application line applying the whole amount iff `InvoiceRefNbr` is non-empty |
| Batch.Attached | StanbicBankIntegration/StanbicReconProcess.cs:47-58 | the saved payment holds exactly the application lines the ledger accepted |
| Batch.ItemOutcome | StanbicBankIntegration/StanbicReconProcess.cs:29-80 | an item without a customer fails with "Customer ID is required to process payment."; an item succeeds iff it has a customer and the ledger prepares and saves its payment |
| Batch.ApplyAll | StanbicBankIntegration/StanbicReconProcess.cs:27-81 | processing the items never adds or removes a staged record |
| Batch.ApplyAllSettles | StanbicBankIntegration/StanbicReconProcess.cs:27-81 | a record no item names is untouched; any other changes only in status, to the outcome of the last item naming it |
| Batch.ProcessTransactions | StanbicBankIntegration/StanbicReconProcess.cs:22-85 | every item is visited in order, and a failure does not stop the loop; the batch error is raised iff some item failed; the table ends as the functional reference says |
| Batch.EveryItemSettles | StanbicBankIntegration/StanbicReconProcess.cs:27-81 | with distinct ids, every staged item ends "Processed" or "Error" as its own outcome says, with nothing else changed |

## Left out

- The Acumatica cache plumbing is not modelled: `PXCache.Locate`, `GetStatus`, `RequestRefresh`, `Persist`, the `RowPersisting` cancel, and the clearing of caches. A session is a plain sequence of lines. The screen's cache is a map from invoice key to line.
- The null-row guards (`txn == null`, `e.Row == null`) are not modelled; the model always has a current transaction and row.
- The invoice query (`ARInvoice` selected by customer, open and released, ordered by due date then reference number) is not modelled. Its result is the `invoices` parameter. A null invoice balance is taken as 0.
- The ledger graph `ARPaymentEntry` is outside the model: header insert, `SetValueExt`, `Adjustments.Insert`, `PressSave`. These are the three oracles of `Records.Ledger`. Branch resolution from the first invoice (`ARInvoice.PK.Find`) is folded into them.
- A failure of the final status write (`PXDatabase.Update`) after a saved payment is not modelled. In the code it would record "Error" although the payment exists.
- The redirect to the new payment, `ViewPayment`, `AutoAllocate`, `GetPeriodForDate`, and the customer and payment-method defaulting handlers are not modelled. They are navigation or database lookups.
- `decimal.TryParse` is modelled as an abstract parse function to the four-decimal scale. Its culture rules and rounding are not modelled.
- JSON deserialization is an oracle. Its failure message stands for any exception in the `try` block before the insert.
- The async HTTP stream, `PXLoginScope`, `PXContext.SetScreenID`, `Task.Run`, the user id and the timestamps are platform context and are not modelled.
- `WriteLog` and the webhook log table are not modelled. A failing log write would turn a reply into "Error: …", or raise from the catch block, and the model ignores that case.
- The per-row `SetInfo`/`SetError` messages of the batch screen are the `results` sequence. The batch exception is the `batchError` flag. The screen's filter on status "New" selects the items and is not modelled.
- Session.Step: an action on a line index that does not exist is treated as doing nothing; the screen has no such action.
- Allocation.EditAmount: a cleared amount cell is read as 0 applied, as `CuryApplAmt ?? 0m` reads it, but the model stores 0 where the code stores `null`.
- Text.Truncate: lengths count Unicode scalar values, whereas .NET `Length` and `Substring` count UTF-16 code units, so text with characters outside the Basic Multilingual Plane is cut at a different place.
- Recon.ErrorText: the 500-character limit is counted in Unicode scalar values, not in UTF-16 code units as the code counts it (see `Text.Truncate`).
- Batch.ProcessTransactions: the "Error" status write in the catch block is assumed to succeed. If it throws, the exception leaves the loop, the remaining items are not processed and the batch error is not raised; the model's "a failure does not stop the loop" holds only when that write succeeds.
- Recon.CreatePayment: the "Error" status write in the catch block is assumed to succeed. If it throws, its database exception replaces "Failed to create payment: …" and the status is not set to "Error".
- Webhook.ProcessWebhook: deliveries are processed one after another. Two concurrent deliveries of one notification can both pass the duplicate lookup before either inserts; which of them fails then depends on the database, and the model does not cover it.
- Recon.CreatePayment: the attach oracle sees the line with its amount already set, whereas the code inserts the line by key and sets the amount afterwards.

## Findings

| source | as written | input that shows it | evidently intended | confidence | as-written member | corrected member |
|---|---|---|---|---|---|---|
| StanbicBankIntegration/StanbicPaymentRecon.cs:63-109 | a line still held in the screen's cache adds its amount to `totalApplied`, but `remainingAmount` is not reduced, so invoices after it are auto-allocated from the full `TransAmount` | `TransAmount` 100.0000; invoices A and B with balance 100.0000 each; A's line cached as selected with 100.0000 ("Full"); B is filled with 100.0000 again, so 200.0000 is applied against a 100.0000 payment | the money the cached selected lines hold is taken off the payment before fresh lines are filled, so the selection never exceeds the payment | low; not executed (depends on the cache keeping the modified line across view refreshes) | Allocation.CachedLinesOverAllocate | Allocation.AllocateCorrected |

=== FILE: allocation.dfy ===
/** The allocation engine of the reconciliation screen: one `Line` (an `InvoiceApplication`
    row) per open invoice of the customer, the oldest-first auto-allocation that proposes the
    lines, the operator's edits (toggling a line, typing an amount, clearing everything), and
    the invariants every one of those keeps. */
module Allocation {
  import opened Wrappers

  /** The key of an invoice row: (`DocType`, `RefNbr`). */
  datatype InvoiceKey = InvoiceKey(docType: string, refNbr: string)

  /** An open, released invoice of the customer, as the ledger query returns it. */
  datatype Invoice = Invoice(key: InvoiceKey, curyDocBal: int)

  /** `PaymentStatus`: `null`, "Partial" or "Full". */
  datatype Fill = NoFill | Partial | Full

  /** One allocation line. `remainingBalance` is stored, not derived, as in the source. */
  datatype Line = Line(
    key: InvoiceKey,
    curyDocBal: int,
    selected: bool,
    curyApplAmt: int,
    remainingBalance: int,
    paymentStatus: Fill)

  function Min(a: int, b: int): int { if a <= b then a else b }
  function Max(a: int, b: int): int { if a >= b then a else b }

  // ---------------------------------------------------------------------------------------
  // Sums over lines

  /** What a line adds to the total applied: its amount when selected, else nothing. */
  function Contribution(l: Line): int {
    if l.selected then l.curyApplAmt else 0
  }

  /** The sum of applied amounts over the selected lines (what `CalculateTotals` computes). */
  function SelectedSum(lines: seq<Line>): int {
    if |lines| == 0 then 0 else Contribution(lines[0]) + SelectedSum(lines[1..])
  }

  lemma {:induction false} SelectedSumConcat(a: seq<Line>, b: seq<Line>)
    ensures SelectedSum(a + b) == SelectedSum(a) + SelectedSum(b)
  {
    if |a| == 0 {
      assert a + b == b;
    } else {
      assert (a + b)[1..] == a[1..] + b;
      SelectedSumConcat(a[1..], b);
    }
  }

  /** Replacing one line changes the selected sum by exactly that line's difference. */
  lemma {:induction false} SelectedSumUpdate(lines: seq<Line>, i: nat, x: Line)
    requires i < |lines|
    ensures SelectedSum(lines[i := x]) == SelectedSum(lines) - Contribution(lines[i]) + Contribution(x)
  {
    if i == 0 {
      assert lines[i := x][1..] == lines[1..];
    } else {
      assert lines[i := x][1..] == lines[1..][i - 1 := x];
      SelectedSumUpdate(lines[1..], i - 1, x);
    }
  }

  /** The applied amounts of the selected lines whose key is `key`. */
  function KeyedSum(lines: seq<Line>, key: InvoiceKey): int {
    if |lines| == 0 then 0
    else (if lines[0].key == key then Contribution(lines[0]) else 0) + KeyedSum(lines[1..], key)
  }

  /** `GetTotalAppliedExcluding`: the applied amounts of the selected lines whose key is not
      `key`; with the lines carrying `key` it makes up the whole selected total. */
  function AppliedExcluding(lines: seq<Line>, key: InvoiceKey): (r: int)
    ensures r + KeyedSum(lines, key) == SelectedSum(lines)
  {
    if |lines| == 0 then 0
    else
      (if lines[0].selected && lines[0].key != key then lines[0].curyApplAmt else 0)
      + AppliedExcluding(lines[1..], key)
  }

  /** `GetAvailableAmount`: what the payment still has to give once the other lines are paid,
      that is, the unallocated rest plus what the line with `key` already holds. */
  function Available(transAmount: int, lines: seq<Line>, key: InvoiceKey): (r: int)
    ensures r == (transAmount - SelectedSum(lines)) + KeyedSum(lines, key)
  {
    transAmount - AppliedExcluding(lines, key)
  }

  /** Invoice keys are unique in the ledger, so they are unique among the lines. */
  ghost predicate UniqueKeys(lines: seq<Line>) {
    forall i, j :: 0 <= i < j < |lines| ==> lines[i].key != lines[j].key
  }

  lemma {:induction false} AppliedExcludingAbsent(lines: seq<Line>, key: InvoiceKey)
    requires forall j :: 0 <= j < |lines| ==> lines[j].key != key
    ensures AppliedExcluding(lines, key) == SelectedSum(lines)
  {
    if |lines| > 0 {
      AppliedExcludingAbsent(lines[1..], key);
    }
  }

  /** With unique keys, excluding a line by key is excluding exactly that line. */
  lemma {:induction false} AppliedExcludingSelf(lines: seq<Line>, i: nat)
    requires UniqueKeys(lines) && i < |lines|
    ensures AppliedExcluding(lines, lines[i].key) == SelectedSum(lines) - Contribution(lines[i])
  {
    if i == 0 {
      AppliedExcludingAbsent(lines[1..], lines[0].key);
    } else {
      assert lines[0].key != lines[i].key;
      assert UniqueKeys(lines[1..]);
      AppliedExcludingSelf(lines[1..], i - 1);
    }
  }

  // ---------------------------------------------------------------------------------------
  // Invariants

  /** The payment status agrees with the amounts. "Full" with nothing applied is possible only
      on a selected zero-balance line, which the selection handler marks "Full". */
  ghost predicate FillAgrees(l: Line) {
    match l.paymentStatus
    case Full => l.curyApplAmt == l.curyDocBal && (l.curyApplAmt > 0 || l.selected)
    case Partial => 0 < l.curyApplAmt < l.curyDocBal
    case NoFill => l.curyApplAmt == 0
  }

  /** Per-line invariant: 0 <= applied <= balance, remaining = balance - applied, status agrees. */
  ghost predicate LineOk(l: Line) {
    && 0 <= l.curyApplAmt <= l.curyDocBal
    && l.remainingBalance == l.curyDocBal - l.curyApplAmt
    && FillAgrees(l)
  }

  /** Session invariant: every line is sound and the selected lines never spend more than the
      payment amount. */
  ghost predicate SessionOk(transAmount: int, lines: seq<Line>) {
    && UniqueKeys(lines)
    && (forall i :: 0 <= i < |lines| ==> LineOk(lines[i]))
    && SelectedSum(lines) <= transAmount
  }

  lemma {:induction false} SelectedSumNonNegative(lines: seq<Line>)
    requires forall i :: 0 <= i < |lines| ==> LineOk(lines[i])
    ensures SelectedSum(lines) >= 0
  {
    if |lines| > 0 {
      assert LineOk(lines[0]);
      SelectedSumNonNegative(lines[1..]);
    }
  }

  // ---------------------------------------------------------------------------------------
  // Totals

  /** `CalculateTotals`: the transaction's `TotalApplied` and `Unallocated`. */
  method CalculateTotals(transAmount: int, lines: seq<Line>) returns (totalApplied: int, unallocated: int)
    ensures totalApplied == SelectedSum(lines)
    ensures unallocated == transAmount - totalApplied
    ensures SessionOk(transAmount, lines) ==> 0 <= totalApplied && 0 <= unallocated
  {
    totalApplied := 0;
    var k := 0;
    while k < |lines|
      invariant 0 <= k <= |lines|
      invariant totalApplied == SelectedSum(lines[..k])
    {
      assert lines[..k + 1] == lines[..k] + [lines[k]];
      SelectedSumConcat(lines[..k], [lines[k]]);
      if lines[k].selected {
        totalApplied := totalApplied + lines[k].curyApplAmt;
      }
      k := k + 1;
    }
    assert lines[..k] == lines;
    unallocated := transAmount - totalApplied;
    if SessionOk(transAmount, lines) {
      SelectedSumNonNegative(lines);
    }
  }

  // ---------------------------------------------------------------------------------------
  // Auto-allocation (the `invoiceApplications` view delegate)

  /** The line a not-yet-cached invoice gets while `remaining` of the payment is unspent. */
  function FreshLine(inv: Invoice, remaining: int): (l: Line)
    ensures l.key == inv.key && l.curyDocBal == inv.curyDocBal
    ensures l.curyApplAmt == (if remaining > 0 && inv.curyDocBal > 0 then Min(remaining, inv.curyDocBal) else 0)
    ensures l.selected <==> l.curyApplAmt > 0
    ensures inv.curyDocBal >= 0 ==> LineOk(l)
  {
    var bal := inv.curyDocBal;
    if remaining > 0 && bal > 0 then
      if remaining >= bal then Line(inv.key, bal, true, bal, bal - bal, Full)
      else Line(inv.key, bal, true, remaining, bal - remaining, Partial)
    else Line(inv.key, bal, false, 0, bal - 0, NoFill)
  }

  /** The lines of a walk and the delegate's running `totalApplied`. */
  datatype Allocated = Allocated(lines: seq<Line>, totalApplied: int)

  /** The delegate's walk over the invoices in due-date order, as written: a line still held
      in the cache is returned as it is and its amount is added to the total, but the amount
      left to allocate is not reduced by it; any other invoice gets a fresh line. */
  function Allocate(remaining: int, invoices: seq<Invoice>, cache: map<InvoiceKey, Line>): (r: Allocated)
    ensures |r.lines| == |invoices|
    ensures forall i :: 0 <= i < |invoices| && invoices[i].key in cache ==> r.lines[i] == cache[invoices[i].key]
    ensures forall i :: 0 <= i < |invoices| && invoices[i].key !in cache ==>
      && r.lines[i].key == invoices[i].key
      && r.lines[i].curyDocBal == invoices[i].curyDocBal
      && (r.lines[i].selected <==> r.lines[i].curyApplAmt > 0)
      && (invoices[i].curyDocBal >= 0 ==> LineOk(r.lines[i]))
  {
    if |invoices| == 0 then Allocated([], 0)
    else
      var inv := invoices[0];
      if inv.key in cache then
        var line := cache[inv.key];
        var rest := Allocate(remaining, invoices[1..], cache);
        Allocated([line] + rest.lines, line.curyApplAmt + rest.totalApplied)
      else
        var line := FreshLine(inv, remaining);
        var rest := Allocate(remaining - line.curyApplAmt, invoices[1..], cache);
        Allocated([line] + rest.lines, line.curyApplAmt + rest.totalApplied)
  }

  /** The sum of the positive balances: what the invoices can absorb. */
  function PositiveSum(invoices: seq<Invoice>): (r: int)
    ensures r >= 0
  {
    if |invoices| == 0 then 0 else Max(invoices[0].curyDocBal, 0) + PositiveSum(invoices[1..])
  }

  lemma {:induction false} PositiveSumConcat(a: seq<Invoice>, b: seq<Invoice>)
    ensures PositiveSum(a + b) == PositiveSum(a) + PositiveSum(b)
  {
    if |a| == 0 {
      assert a + b == b;
    } else {
      assert (a + b)[1..] == a[1..] + b;
      PositiveSumConcat(a[1..], b);
    }
  }

  /** A fresh allocation spends as much of the payment as the invoices can absorb, and the
      delegate's running total is exactly the selected sum. */
  lemma {:induction false} AllocateFreshTotal(remaining: int, invoices: seq<Invoice>)
    ensures SelectedSum(Allocate(remaining, invoices, map[]).lines) == Min(Max(remaining, 0), PositiveSum(invoices))
    ensures Allocate(remaining, invoices, map[]).totalApplied == SelectedSum(Allocate(remaining, invoices, map[]).lines)
  {
    if |invoices| > 0 {
      var line := FreshLine(invoices[0], remaining);
      AllocateFreshTotal(remaining - line.curyApplAmt, invoices[1..]);
      var r := Allocate(remaining, invoices, map[]);
      assert r.lines[1..] == Allocate(remaining - line.curyApplAmt, invoices[1..], map[]).lines;
    }
  }

  /** Reference definition of the oldest-first greedy fill: invoice `i` gets what is left of
      the payment after every earlier invoice has been paid in full, capped by its balance. */
  function ExpectedApplied(remaining: int, invoices: seq<Invoice>, i: nat): int
    requires i < |invoices|
  {
    var room := remaining - PositiveSum(invoices[..i]);
    if invoices[i].curyDocBal > 0 && room > 0 then Min(room, invoices[i].curyDocBal) else 0
  }

  /** The walk computes exactly the reference greedy fill, line by line. */
  lemma {:induction false} AllocateMatchesReference(remaining: int, invoices: seq<Invoice>)
    ensures forall i :: 0 <= i < |invoices| ==>
      Allocate(remaining, invoices, map[]).lines[i].curyApplAmt == ExpectedApplied(remaining, invoices, i)
  {
    if |invoices| > 0 {
      var line := FreshLine(invoices[0], remaining);
      var rem' := remaining - line.curyApplAmt;
      AllocateMatchesReference(rem', invoices[1..]);
      var r := Allocate(remaining, invoices, map[]);
      var rest := Allocate(rem', invoices[1..], map[]);
      assert invoices[..0] == [];
      forall i | 1 <= i < |invoices|
        ensures r.lines[i].curyApplAmt == ExpectedApplied(remaining, invoices, i)
      {
        assert r.lines[i] == rest.lines[i - 1];
        assert invoices[..i][1..] == invoices[1..][..i - 1];
        assert PositiveSum(invoices[..i]) == Max(invoices[0].curyDocBal, 0) + PositiveSum(invoices[1..][..i - 1]);
      }
    }
  }

  /** Oldest first: a line receives money only when every earlier invoice with a positive
      balance has been paid in full ("Full"). */
  lemma AllocateIsOldestFirst(remaining: int, invoices: seq<Invoice>, j: nat, k: nat)
    requires j < k < |invoices|
    ensures invoices[j].curyDocBal > 0 && Allocate(remaining, invoices, map[]).lines[k].curyApplAmt > 0 ==>
      && Allocate(remaining, invoices, map[]).lines[j].curyApplAmt == invoices[j].curyDocBal
      && Allocate(remaining, invoices, map[]).lines[j].paymentStatus == Full
  {
    var r := Allocate(remaining, invoices, map[]);
    if invoices[j].curyDocBal > 0 && r.lines[k].curyApplAmt > 0 {
      AllocateMatchesReference(remaining, invoices);
      assert invoices[..k] == invoices[..j] + [invoices[j]] + invoices[j + 1..k];
      PositiveSumConcat(invoices[..j] + [invoices[j]], invoices[j + 1..k]);
      PositiveSumConcat(invoices[..j], [invoices[j]]);
      assert PositiveSum([invoices[j]]) == invoices[j].curyDocBal;
      assert LineOk(r.lines[j]);
    }
  }

  /** The selected amounts of the cached lines the walk will meet. */
  function CachedSelectedSum(invoices: seq<Invoice>, cache: map<InvoiceKey, Line>): int {
    if |invoices| == 0 then 0
    else
      (if invoices[0].key in cache then Contribution(cache[invoices[0].key]) else 0)
      + CachedSelectedSum(invoices[1..], cache)
  }

  lemma {:induction false} CachedSelectedSumEmpty(invoices: seq<Invoice>)
    ensures CachedSelectedSum(invoices, map[]) == 0
  {
    if |invoices| > 0 {
      CachedSelectedSumEmpty(invoices[1..]);
    }
  }

  /** With a cache, the fresh lines together still get at most what was left to allocate, on
      top of whatever the cached lines already hold. */
  lemma {:induction false} AllocateSumBounds(remaining: int, invoices: seq<Invoice>, cache: map<InvoiceKey, Line>)
    ensures CachedSelectedSum(invoices, cache) <= SelectedSum(Allocate(remaining, invoices, cache).lines)
    ensures SelectedSum(Allocate(remaining, invoices, cache).lines) <= CachedSelectedSum(invoices, cache) + Max(remaining, 0)
  {
    if |invoices| > 0 {
      var r := Allocate(remaining, invoices, cache);
      if invoices[0].key in cache {
        AllocateSumBounds(remaining, invoices[1..], cache);
        assert r.lines[1..] == Allocate(remaining, invoices[1..], cache).lines;
      } else {
        var line := FreshLine(invoices[0], remaining);
        AllocateSumBounds(remaining - line.curyApplAmt, invoices[1..], cache);
        assert r.lines[1..] == Allocate(remaining - line.curyApplAmt, invoices[1..], cache).lines;
      }
    }
  }

  /** The walk as written over-allocates once a cached line holds money: here invoice A's
      cached line already takes the whole payment of 100.0000, and invoice B is filled again
      from the full amount, so 200.0000 is applied against a 100.0000 payment. */
  lemma CachedLinesOverAllocate()
    ensures
      var a := InvoiceKey("INV", "A");
      var b := InvoiceKey("INV", "B");
      var invoices := [Invoice(a, 1000000), Invoice(b, 1000000)];
      var cache := map[a := Line(a, 1000000, true, 1000000, 0, Full)];
      && SelectedSum(Allocate(1000000, invoices, cache).lines) == 2000000
      && SelectedSum(AllocateCorrected(1000000, invoices, cache).lines) == 1000000
  {
    var a := InvoiceKey("INV", "A");
    var b := InvoiceKey("INV", "B");
    var invoices := [Invoice(a, 1000000), Invoice(b, 1000000)];
    var cache := map[a := Line(a, 1000000, true, 1000000, 0, Full)];
    assert a.refNbr[0] != b.refNbr[0];
    assert b !in cache;
    assert invoices[1..] == [Invoice(b, 1000000)];
    assert invoices[1..][1..] == [];
    assert CachedSelectedSum(invoices[1..], cache) == 0;
    assert CachedSelectedSum(invoices, cache) == 1000000;
    var r := Allocate(1000000, invoices, cache);
    assert r.lines[0] == cache[a];
    var rest := Allocate(1000000, invoices[1..], cache);
    assert r.lines == [cache[a]] + rest.lines;
    assert invoices[1..][0].key !in cache;
    assert rest.lines[0] == FreshLine(invoices[1..][0], 1000000);
    assert r.lines[1..][1..] == [];
    assert SelectedSum(r.lines[1..]) == 1000000;
    var c := AllocateCorrected(1000000, invoices, cache);
    assert c.lines[1..][1..] == [];
  }

  /** The walk with the evident intent restored: the money the cached selected lines already
      hold is taken off the payment before fresh lines are filled. */
  function AllocateCorrected(transAmount: int, invoices: seq<Invoice>, cache: map<InvoiceKey, Line>): (r: Allocated)
    ensures |r.lines| == |invoices|
    ensures SelectedSum(r.lines) <= Max(transAmount, CachedSelectedSum(invoices, cache))
  {
    var held := CachedSelectedSum(invoices, cache);
    AllocateSumBounds(transAmount - held, invoices, cache);
    Allocate(transAmount - held, invoices, cache)
  }

  /** Without cached lines the correction changes nothing. */
  lemma AllocateCorrectedWithoutCache(transAmount: int, invoices: seq<Invoice>)
    ensures AllocateCorrected(transAmount, invoices, map[]) == Allocate(transAmount, invoices, map[])
  {
    CachedSelectedSumEmpty(invoices);
  }

  /** A cache the screen can hold: every line is stored under its own key and is sound. */
  ghost predicate CacheOk(cache: map<InvoiceKey, Line>) {
    forall k :: k in cache ==> cache[k].key == k && LineOk(cache[k])
  }

  /** Invoices of the ledger query: unique keys and no negative balance. */
  ghost predicate InvoicesOk(invoices: seq<Invoice>) {
    && (forall i, j :: 0 <= i < j < |invoices| ==> invoices[i].key != invoices[j].key)
    && (forall i :: 0 <= i < |invoices| ==> invoices[i].curyDocBal >= 0)
  }

  /** Opening a session establishes the session invariant, provided the cached lines do not
      already spend more than the payment. */
  lemma AllocateCorrectedIsSessionOk(transAmount: int, invoices: seq<Invoice>, cache: map<InvoiceKey, Line>)
    requires transAmount >= 0 && InvoicesOk(invoices) && CacheOk(cache)
    requires CachedSelectedSum(invoices, cache) <= transAmount
    ensures SessionOk(transAmount, AllocateCorrected(transAmount, invoices, cache).lines)
  {
    var r := AllocateCorrected(transAmount, invoices, cache);
    forall i | 0 <= i < |r.lines| ensures LineOk(r.lines[i]) && r.lines[i].key == invoices[i].key {
      if invoices[i].key in cache {
        assert r.lines[i] == cache[invoices[i].key];
      }
    }
  }

  /** After a fresh allocation with non-negative balances: every line is sound, the payment is
      never overspent, and `Unallocated = TransAmount - TotalApplied` is not negative. */
  lemma FreshAllocationIsSessionOk(transAmount: int, invoices: seq<Invoice>)
    requires transAmount >= 0 && InvoicesOk(invoices)
    ensures SessionOk(transAmount, Allocate(transAmount, invoices, map[]).lines)
    ensures 0 <= transAmount - Allocate(transAmount, invoices, map[]).totalApplied
  {
    CachedSelectedSumEmpty(invoices);
    AllocateCorrectedWithoutCache(transAmount, invoices);
    AllocateCorrectedIsSessionOk(transAmount, invoices, map[]);
    AllocateFreshTotal(transAmount, invoices);
  }

  // ---------------------------------------------------------------------------------------
  // Operator edits

  /** The `Selected` FieldUpdated handler, after the operator set line `i`'s box to
      `selected`. A cleared box empties the line; a ticked box takes the whole balance if the
      payment still has that much, else what the payment has left, else is unticked again. */
  function SetSelected(transAmount: int, lines: seq<Line>, i: nat, selected: bool): (r: seq<Line>)
    requires i < |lines|
    ensures |r| == |lines|
    ensures forall j :: 0 <= j < |lines| && j != i ==> r[j] == lines[j]
    ensures r[i].key == lines[i].key && r[i].curyDocBal == lines[i].curyDocBal
    ensures r[i].remainingBalance == r[i].curyDocBal - r[i].curyApplAmt
    ensures !selected ==> !r[i].selected && r[i].curyApplAmt == 0 && r[i].paymentStatus == NoFill
    ensures selected && lines[i].curyDocBal >= 0 ==>
      var room := Available(transAmount, lines, lines[i].key);
      && r[i].curyApplAmt == Max(0, Min(room, lines[i].curyDocBal))
      && (r[i].selected <==> room > 0 || room >= lines[i].curyDocBal)
    ensures selected ==>
      var room := Available(transAmount, lines, lines[i].key);
      r[i].curyApplAmt == (if room >= lines[i].curyDocBal then lines[i].curyDocBal else Max(0, room))
    ensures selected ==>
      var room := Available(transAmount, lines, lines[i].key);
      r[i].paymentStatus == (if room >= lines[i].curyDocBal then Full else if room > 0 then Partial else NoFill)
  {
    var row := lines[i];
    var bal := row.curyDocBal;
    var updated :=
      if !selected then
        row.(selected := false, curyApplAmt := 0, paymentStatus := NoFill, remainingBalance := bal)
      else
        var available := Available(transAmount, lines, row.key);
        if available >= bal then
          row.(selected := true, curyApplAmt := bal, paymentStatus := Full, remainingBalance := bal - bal)
        else if available > 0 then
          row.(selected := true, curyApplAmt := available, paymentStatus := Partial, remainingBalance := bal - available)
        else
          row.(selected := false, curyApplAmt := 0, paymentStatus := NoFill, remainingBalance := bal - 0);
    lines[i := updated]
  }

  /** Toggling a line keeps the session invariant. */
  lemma SetSelectedKeepsSessionOk(transAmount: int, lines: seq<Line>, i: nat, selected: bool)
    requires i < |lines| && SessionOk(transAmount, lines)
    ensures SessionOk(transAmount, SetSelected(transAmount, lines, i, selected))
  {
    var r := SetSelected(transAmount, lines, i, selected);
    assert LineOk(lines[i]);
    AppliedExcludingSelf(lines, i);
    SelectedSumUpdate(lines, i, r[i]);
    assert r == lines[i := r[i]];
    assert LineOk(r[i]);
  }

  /** `FieldVerifying` of `CuryApplAmt`: the typed amount is refused when negative, when above
      the invoice balance, or when the other selected lines plus it exceed the payment. */
  datatype AmountError =
    | AmountCannotBeNegative
    | AmountExceedsInvoiceBalance(balance: int)
    | TotalExceedsPaymentAmount(maxPayment: int)

  function VerifyAmount(transAmount: int, lines: seq<Line>, i: nat, newAmt: int): (r: Outcome<AmountError>)
    requires i < |lines|
    ensures r.Pass? <==> 0 <= newAmt <= lines[i].curyDocBal && AppliedExcluding(lines, lines[i].key) + newAmt <= transAmount
    ensures newAmt < 0 ==> r == Fail(AmountCannotBeNegative)
    ensures 0 <= newAmt && newAmt > lines[i].curyDocBal ==> r == Fail(AmountExceedsInvoiceBalance(lines[i].curyDocBal))
    ensures r.Fail? && 0 <= newAmt <= lines[i].curyDocBal ==> r == Fail(TotalExceedsPaymentAmount(transAmount))
  {
    var docBal := lines[i].curyDocBal;
    if newAmt < 0 then Fail(AmountCannotBeNegative)
    else if newAmt > docBal then Fail(AmountExceedsInvoiceBalance(docBal))
    else if AppliedExcluding(lines, lines[i].key) + newAmt > transAmount then Fail(TotalExceedsPaymentAmount(transAmount))
    else Pass
  }

  /** A ticked box gets the largest amount the amount check would accept for that line. */
  lemma SetSelectedTakesLargestValidAmount(transAmount: int, lines: seq<Line>, i: nat)
    requires i < |lines| && SessionOk(transAmount, lines)
    ensures VerifyAmount(transAmount, lines, i, SetSelected(transAmount, lines, i, true)[i].curyApplAmt).Pass?
    ensures forall a :: a > SetSelected(transAmount, lines, i, true)[i].curyApplAmt ==>
      VerifyAmount(transAmount, lines, i, a).Fail?
  {
    assert LineOk(lines[i]);
    AppliedExcludingSelf(lines, i);
    SelectedSumNonNegative(lines);
  }

  /** The status the `CuryApplAmt` FieldUpdated handler gives an amount. */
  function FillFor(applied: int, docBal: int): Fill {
    if applied >= docBal && applied > 0 then Full
    else if applied > 0 then Partial
    else NoFill
  }

  /** The operator types `newAmt` into line `i` (`None` is a cleared cell, read as zero). A
      refused amount leaves the lines as they were; an accepted one is stored with its
      remaining balance and status. */
  function EditAmount(transAmount: int, lines: seq<Line>, i: nat, newAmt: Option<int>): (r: Result<seq<Line>, AmountError>)
    requires i < |lines|
    ensures r.Failure? <==> newAmt.Some? && VerifyAmount(transAmount, lines, i, newAmt.value).Fail?
    ensures r.Failure? ==> r.error == VerifyAmount(transAmount, lines, i, newAmt.value).error
    ensures r.Success? ==> |r.value| == |lines|
    ensures r.Success? ==>
      var l := r.value[i];
      && (forall j :: 0 <= j < |lines| && j != i ==> r.value[j] == lines[j])
      && l.key == lines[i].key && l.curyDocBal == lines[i].curyDocBal && l.selected == lines[i].selected
      && l.curyApplAmt == newAmt.GetOr(0)
      && l.remainingBalance == l.curyDocBal - l.curyApplAmt
      && (l.paymentStatus == Full <==> l.curyApplAmt >= l.curyDocBal && l.curyApplAmt > 0)
      && (l.paymentStatus == Partial <==> 0 < l.curyApplAmt < l.curyDocBal)
      && (l.paymentStatus == NoFill <==> l.curyApplAmt <= 0)
  {
    var amt := newAmt.GetOr(0);
    var ok := newAmt.None? || VerifyAmount(transAmount, lines, i, amt).Pass?;
    if !ok then Failure(VerifyAmount(transAmount, lines, i, amt).error)
    else
      var row := lines[i];
      Success(lines[i := row.(curyApplAmt := amt, remainingBalance := row.curyDocBal - amt,
                              paymentStatus := FillFor(amt, row.curyDocBal))])
  }

  /** Every accepted amount keeps the session invariant: the line stays within its balance and
      the selected lines within the payment. */
  lemma EditAmountKeepsSessionOk(transAmount: int, lines: seq<Line>, i: nat, newAmt: Option<int>)
    requires i < |lines| && SessionOk(transAmount, lines)
    requires EditAmount(transAmount, lines, i, newAmt).Success?
    ensures SessionOk(transAmount, EditAmount(transAmount, lines, i, newAmt).value)
  {
    var r := EditAmount(transAmount, lines, i, newAmt).value;
    assert LineOk(lines[i]);
    AppliedExcludingSelf(lines, i);
    SelectedSumUpdate(lines, i, r[i]);
    assert r == lines[i := r[i]];
    assert LineOk(r[i]);
  }

  /** The `ClearAllocation` action on one line: a line that is selected or holds money is
      emptied; any other line is left alone. */
  function ClearLine(l: Line): Line {
    if l.selected || l.curyApplAmt > 0 then
      l.(selected := false, curyApplAmt := 0, paymentStatus := NoFill, remainingBalance := l.curyDocBal)
    else l
  }

  lemma {:induction false} UnselectedSumIsZero(lines: seq<Line>)
    requires forall j :: 0 <= j < |lines| ==> !lines[j].selected
    ensures SelectedSum(lines) == 0
  {
    if |lines| > 0 {
      UnselectedSumIsZero(lines[1..]);
    }
  }

  /** `ClearAllocation`: afterwards no line is selected, nothing is applied and the total
      applied is zero. */
  function ClearAllocation(lines: seq<Line>): (r: seq<Line>)
    ensures |r| == |lines|
    ensures forall j :: 0 <= j < |r| ==>
      && !r[j].selected && r[j].curyApplAmt <= 0
      && r[j].key == lines[j].key && r[j].curyDocBal == lines[j].curyDocBal
    ensures SelectedSum(r) == 0
  {
    var r := seq(|lines|, j requires 0 <= j < |lines| => ClearLine(lines[j]));
    UnselectedSumIsZero(r);
    r
  }

  /** On sound lines, clearing resets every line completely: unselected, nothing applied, no
      status, and the whole balance remaining. */
  lemma ClearAllocationResetsEveryLine(lines: seq<Line>)
    requires forall j :: 0 <= j < |lines| ==> LineOk(lines[j])
    ensures forall j :: 0 <= j < |lines| ==>
      ClearAllocation(lines)[j] == lines[j].(selected := false, curyApplAmt := 0, paymentStatus := NoFill,
                                             remainingBalance := lines[j].curyDocBal)
  {
    forall j | 0 <= j < |lines|
      ensures ClearAllocation(lines)[j] == lines[j].(selected := false, curyApplAmt := 0, paymentStatus := NoFill,
                                                    remainingBalance := lines[j].curyDocBal)
    {
      assert LineOk(lines[j]);
    }
  }

  /** Clearing keeps the session invariant, for any payment amount that is not negative. */
  lemma ClearAllocationKeepsSessionOk(transAmount: int, lines: seq<Line>)
    requires SessionOk(transAmount, lines)
    ensures SessionOk(transAmount, ClearAllocation(lines))
  {
    ClearAllocationResetsEveryLine(lines);
    SelectedSumNonNegative(lines);
    var r := ClearAllocation(lines);
    forall i, j | 0 <= i < j < |r| ensures r[i].key != r[j].key {
      assert lines[i].key != lines[j].key;
    }
    forall j | 0 <= j < |r| ensures LineOk(r[j]) {
      assert LineOk(lines[j]);
    }
  }
}

=== FILE: batch.dfy ===
/** The mass-processing screen: every selected staged transaction becomes a payment of its own,
    one at a time; a failure marks that transaction and the loop goes on; the batch as a
    whole reports an error when any item failed. */
module Batch {
  import opened Wrappers
  import opened Records

  const CustomerIdRequired := "Customer ID is required to process payment."
  const ProcessedSuccess := "Payment Created Successfully"
  const BatchError := "Some payments failed to process."

  /** The message shown on an item's row: the success text, or the exception's message. */
  datatype ItemResult = ItemProcessed | ItemFailed(message: string)

  /** The payment document asked for an item: the whole amount, referenced by the transaction
      id, applied in full to the invoice the item names, if it names one. */
  function BatchRequest(item: StanbicBankTxn): (r: PaymentRequest)
    requires item.customerId.Some?
    ensures r.customerId == item.customerId.value && r.curyOrigDocAmt == item.transAmount
    ensures r.extRefNbr == item.transId && r.docDesc == Some("Stanbic " + item.transId)
    ensures |r.adjustments| == (if item.invoiceRefNbr != "" then 1 else 0)
    ensures forall k :: 0 <= k < |r.adjustments| ==>
      r.adjustments[k] == Adjustment(InvoiceDocType, item.invoiceRefNbr, item.transAmount)
  {
    PaymentRequest(
      customerId := item.customerId.value,
      paymentMethodId := "",
      cashAccountId := None,
      curyOrigDocAmt := item.transAmount,
      adjDate := None,
      extRefNbr := item.transId,
      docDesc := Some("Stanbic " + item.transId),
      adjustments :=
        if item.invoiceRefNbr != "" then [Adjustment(InvoiceDocType, item.invoiceRefNbr, item.transAmount)] else [])
  }

  /** The application lines the ledger accepted; the loop does not look at the others, which
      are simply not part of the saved payment. */
  function Attached(adjustments: seq<Adjustment>, attach: Adjustment -> bool): (r: seq<Adjustment>)
    ensures |r| <= |adjustments|
    ensures forall a :: a in r <==> a in adjustments && attach(a)
  {
    if |adjustments| == 0 then []
    else (if attach(adjustments[0]) then [adjustments[0]] else []) + Attached(adjustments[1..], attach)
  }

  /** One item: no customer is an error; otherwise the outcome of preparing and saving its
      payment. */
  function ItemOutcome(item: StanbicBankTxn, ledger: Ledger): (r: ItemResult)
    ensures item.customerId.None? ==> r == ItemFailed(CustomerIdRequired)
    ensures r.ItemProcessed? <==>
      && item.customerId.Some?
      && ledger.prepare(BatchRequest(item)).None?
      && ledger.save(BatchRequest(item).(adjustments := Attached(BatchRequest(item).adjustments, ledger.attach))).Saved?
  {
    if item.customerId.None? then ItemFailed(CustomerIdRequired)
    else
      var request := BatchRequest(item);
      match ledger.prepare(request)
      case Some(fault) => ItemFailed(fault.message)
      case None =>
        match ledger.save(request.(adjustments := Attached(request.adjustments, ledger.attach)))
        case Saved(_, _) => ItemProcessed
        case SaveFailed(fault) => ItemFailed(fault.message)
  }

  /** The status an item's outcome writes back. */
  function StatusOf(result: ItemResult): string {
    if result.ItemProcessed? then StatusProcessed else StatusError
  }

  /** The items processed in order, each writing its status to the record with its id. */
  function ApplyAll(store: Store, items: seq<StanbicBankTxn>, ledger: Ledger): (r: Store)
    ensures r.Keys == store.Keys
    decreases |items|
  {
    if |items| == 0 then store
    else
      var last := items[|items| - 1];
      SetStatus(ApplyAll(store, items[..|items| - 1], ledger), last.transId, StatusOf(ItemOutcome(last, ledger)))
  }

  /** The position of the last item with the given id. */
  function LastWith(items: seq<StanbicBankTxn>, id: string): (r: Option<nat>)
    ensures r.Some? ==> r.value < |items| && items[r.value].transId == id
    ensures r.Some? ==> forall k :: r.value < k < |items| ==> items[k].transId != id
    ensures r.None? <==> forall k :: 0 <= k < |items| ==> items[k].transId != id
  {
    if |items| == 0 then None
    else if items[|items| - 1].transId == id then Some(|items| - 1)
    else
      var r := LastWith(items[..|items| - 1], id);
      assert forall k :: 0 <= k < |items| - 1 ==> items[..|items| - 1][k] == items[k];
      r
  }

  /** What a staged record looks like after the batch: untouched unless an item carried its
      id, and otherwise with the status of the last such item's outcome. */
  function Settled(id: string, record: StanbicBankTxn, items: seq<StanbicBankTxn>, ledger: Ledger): StanbicBankTxn {
    match LastWith(items, id)
    case None => record
    case Some(k) => record.(status := StatusOf(ItemOutcome(items[k], ledger)))
  }

  /** Only the status of a record the batch processed changes: to the outcome of the last item
      that carried its id. */
  lemma {:induction false} ApplyAllSettles(store: Store, items: seq<StanbicBankTxn>, ledger: Ledger)
    ensures forall id :: id in store ==> ApplyAll(store, items, ledger)[id] == Settled(id, store[id], items, ledger)
    decreases |items|
  {
    if |items| > 0 {
      var init := items[..|items| - 1];
      var last := items[|items| - 1];
      ApplyAllSettles(store, init, ledger);
      forall id | id in store
        ensures ApplyAll(store, items, ledger)[id] == Settled(id, store[id], items, ledger)
      {
        if id != last.transId {
          assert LastWith(items, id) == LastWith(init, id);
        }
      }
    }
  }

  /** `ProcessTransactions` over a snapshot of the selected items. */
  method ProcessTransactions(store: Store, items: seq<StanbicBankTxn>, ledger: Ledger)
    returns (updated: Store, results: seq<ItemResult>, batchError: bool)
    ensures |results| == |items|
    ensures forall i :: 0 <= i < |items| ==> results[i] == ItemOutcome(items[i], ledger)
    ensures batchError <==> exists i :: 0 <= i < |items| && results[i].ItemFailed?
    ensures updated.Keys == store.Keys
    ensures forall id :: id in store ==> updated[id] == Settled(id, store[id], items, ledger)
  {
    updated := store;
    results := [];
    batchError := false;
    var k := 0;
    while k < |items|
      invariant 0 <= k <= |items|
      invariant updated == ApplyAll(store, items[..k], ledger)
      invariant |results| == k
      invariant forall i :: 0 <= i < k ==> results[i] == ItemOutcome(items[i], ledger)
      invariant batchError <==> exists i :: 0 <= i < k && results[i].ItemFailed?
    {
      var item := items[k];
      var outcome := ItemOutcome(item, ledger);
      if outcome.ItemFailed? {
        batchError := true;
      }
      assert items[..k + 1][..k] == items[..k];
      updated := SetStatus(updated, item.transId, StatusOf(outcome));
      results := results + [outcome];
      k := k + 1;
    }
    assert items[..k] == items;
    ApplyAllSettles(store, items, ledger);
  }

  /** With distinct ids, every item staged in the table ends as Processed or Error, exactly as
      its own outcome says. */
  lemma EveryItemSettles(store: Store, items: seq<StanbicBankTxn>, ledger: Ledger, i: nat)
    requires forall j, k :: 0 <= j < k < |items| ==> items[j].transId != items[k].transId
    requires i < |items| && items[i].transId in store
    ensures var record := ApplyAll(store, items, ledger)[items[i].transId];
      && record.status == StatusOf(ItemOutcome(items[i], ledger))
      && record.status in {StatusProcessed, StatusError}
      && record == store[items[i].transId].(status := record.status)
  {
    ApplyAllSettles(store, items, ledger);
    assert LastWith(items, items[i].transId) == Some(i);
  }
}

=== FILE: recon.dfy ===
/** The reconciliation screen around the allocation engine: the invoice-lines view, the
    enabling of its buttons, the "Create Payment" action and the error text it stores. */
module Recon {
  import opened Wrappers
  import opened Text
  import opened Records
  import opened Allocation

  // ---------------------------------------------------------------------------------------
  // The invoice-lines view

  /** What the view delegate yields: the lines, and the totals it leaves on the transaction. */
  datatype ApplicationView = ApplicationView(lines: seq<Line>, totalApplied: int, unallocated: int)

  /** The `invoiceApplications` view delegate over the customer's open invoices (already in
      due-date, then reference-number order) and the lines the screen still holds in its
      cache. A transaction without a customer yields nothing and keeps its totals. The walk is
      the one the code performs (`Allocation.Allocate`), cached lines included. */
  function InvoiceApplications(txn: StanbicBankTxn, invoices: seq<Invoice>, cache: map<InvoiceKey, Line>): (r: Option<ApplicationView>)
    ensures r.None? <==> txn.customerId.None?
    ensures r.Some? ==> |r.value.lines| == |invoices|
    ensures r.Some? ==>
      && r.value.lines == Allocate(AmountOrZero(txn), invoices, cache).lines
      && r.value.totalApplied == Allocate(AmountOrZero(txn), invoices, cache).totalApplied
    ensures r.Some? ==> r.value.unallocated == AmountOrZero(txn) - r.value.totalApplied
  {
    if txn.customerId.None? then None
    else
      var a := Allocate(AmountOrZero(txn), invoices, cache);
      Some(ApplicationView(a.lines, a.totalApplied, AmountOrZero(txn) - a.totalApplied))
  }

  /** A freshly opened view of a customer's invoices is sound: lines within their balances,
      the payment spent as far as the invoices can absorb and never beyond it, and the
      unallocated rest not negative. */
  lemma FreshViewIsSound(txn: StanbicBankTxn, invoices: seq<Invoice>)
    requires txn.customerId.Some? && AmountOrZero(txn) >= 0 && InvoicesOk(invoices)
    ensures var v := InvoiceApplications(txn, invoices, map[]).value;
      && SessionOk(AmountOrZero(txn), v.lines)
      && v.totalApplied == SelectedSum(v.lines) == Min(AmountOrZero(txn), PositiveSum(invoices))
      && 0 <= v.unallocated
  {
    FreshAllocationIsSessionOk(AmountOrZero(txn), invoices);
    AllocateFreshTotal(AmountOrZero(txn), invoices);
  }

  // ---------------------------------------------------------------------------------------
  // Buttons (`RowSelected<StanbicBankTxn>`)

  /** A transaction can still be committed: it is new, or its last attempt failed. */
  predicate StatusAllowsCommit(txn: StanbicBankTxn) {
    txn.status == StatusNew || txn.status == StatusError
  }

  /** "Create Payment" is enabled. It passes the action's status gate, and of the fields the
      action requires it leaves out only the amount and the payment method: it is enabled
      exactly when the action's field checks would pass with any amount and payment method
      filled in. */
  function CreatePaymentEnabled(txn: StanbicBankTxn): (r: bool)
    ensures r <==> StatusAllowsCommit(txn) && MissingField(txn.(transAmount := Some(1), paymentMethodId := "M")).None?
    ensures r ==> StatusAllowsCommit(txn)
    ensures r ==> MissingField(txn) in {None, Some(AmountRequired), Some(PaymentMethodRequired)}
    ensures StatusAllowsCommit(txn) && MissingField(txn).None? ==> r
  {
    && StatusAllowsCommit(txn)
    && txn.customerId.Some?
    && txn.cashAccountId.Some?
    && txn.adjFinPeriodId != ""
  }

  /** "View Payment" is enabled; the two buttons are never enabled together, and a viewable
      transaction is never committed again. */
  function ViewPaymentEnabled(txn: StanbicBankTxn): (r: bool)
    ensures r ==> !CreatePaymentEnabled(txn)
    ensures r ==> forall lines: seq<Line>, ledger: Ledger :: CreatePayment(txn, lines, ledger).NotAllowed?
    ensures txn.status == StatusProcessed && txn.paymentRefNbr != "" ==> r
  {
    txn.status == StatusProcessed && txn.paymentRefNbr != ""
  }

  // ---------------------------------------------------------------------------------------
  // Error text

  const MaxErrorLength: nat := 500

  /** `ex.Message`, then `" | " + ex.InnerException.Message` when there is an inner exception. */
  function FaultText(fault: Fault): string {
    fault.message + (if fault.innerMessage.Some? then " | " + fault.innerMessage.value else "")
  }

  /** The error stored on the transaction when creating the payment fails: the fault's text cut
      to at most 500 characters. */
  function ErrorText(fault: Fault): (r: string)
    ensures |r| <= MaxErrorLength
    ensures r <= FaultText(fault)
    ensures |FaultText(fault)| <= MaxErrorLength ==> r == FaultText(fault)
    ensures |fault.message| <= MaxErrorLength ==> fault.message <= r
    ensures |FaultText(fault)| > MaxErrorLength ==> |r| == MaxErrorLength
  {
    var full := FaultText(fault);
    assert fault.message <= full;
    Truncate(full, MaxErrorLength)
  }

  /** One exception of a chain: its message, and for a `PXOuterException` its inner messages
      (empty for any other kind). */
  datatype ExceptionInfo = ExceptionInfo(message: string, innerMessages: seq<string>)

  /** Every message of a chain in the order `GetFullErrorMessage` meets them; `chain[k + 1]`
      is the `InnerException` of `chain[k]`. */
  function ChainMessages(chain: seq<ExceptionInfo>): seq<string> {
    if |chain| == 0 then []
    else
      var last := chain[|chain| - 1];
      ChainMessages(chain[..|chain| - 1]) + [last.message] + last.innerMessages
  }

  /** Keeps a message unless it is empty or already kept. */
  function AddDistinct(kept: seq<string>, m: string): seq<string> {
    if m != "" && m !in kept then kept + [m] else kept
  }

  /** The distinct non-empty messages in order of first appearance. */
  function DistinctNonEmpty(ms: seq<string>): (r: seq<string>)
    ensures forall k :: 0 <= k < |r| ==> r[k] != ""
    ensures forall j, k :: 0 <= j < k < |r| ==> r[j] != r[k]
    ensures forall m :: m in r <==> m != "" && m in ms
  {
    if |ms| == 0 then []
    else
      var prefix := ms[..|ms| - 1];
      assert ms == prefix + [ms[|ms| - 1]];
      AddDistinct(DistinctNonEmpty(prefix), ms[|ms| - 1])
  }

  /** Messages are kept in order of first appearance: a new non-empty message is appended
      after those already kept, and an empty or repeated one changes nothing. */
  lemma DistinctNonEmptySnoc(ms: seq<string>, m: string)
    ensures DistinctNonEmpty(ms + [m]) == AddDistinct(DistinctNonEmpty(ms), m)
    ensures m != "" && m !in ms ==> DistinctNonEmpty(ms + [m]) == DistinctNonEmpty(ms) + [m]
    ensures m == "" || m in ms ==> DistinctNonEmpty(ms + [m]) == DistinctNonEmpty(ms)
  {
    assert (ms + [m])[..|ms|] == ms;
  }

  /** Adds the messages of `ms` one at a time to those kept from `before`. */
  method KeepDistinct(kept: seq<string>, before: seq<string>, ms: seq<string>) returns (r: seq<string>)
    requires kept == DistinctNonEmpty(before)
    ensures r == DistinctNonEmpty(before + ms)
  {
    r := kept;
    var n := 0;
    assert before + ms[..0] == before;
    while n < |ms|
      invariant 0 <= n <= |ms|
      invariant r == DistinctNonEmpty(before + ms[..n])
    {
      assert before + ms[..n + 1] == (before + ms[..n]) + [ms[n]];
      DistinctNonEmptySnoc(before + ms[..n], ms[n]);
      if ms[n] != "" && ms[n] !in r {
        r := r + [ms[n]];
      }
      n := n + 1;
    }
    assert ms[..n] == ms;
  }

  /** `GetFullErrorMessage`: the distinct non-empty messages of the chain joined by " | ". */
  method GetFullErrorMessage(chain: seq<ExceptionInfo>) returns (text: string)
    ensures text == Join(DistinctNonEmpty(ChainMessages(chain)), " | ")
  {
    var messages: seq<string> := [];
    var k := 0;
    while k < |chain|
      invariant 0 <= k <= |chain|
      invariant messages == DistinctNonEmpty(ChainMessages(chain[..k]))
    {
      var current := chain[k];
      assert chain[..k + 1][..k] == chain[..k];
      assert ChainMessages(chain[..k + 1])
          == ChainMessages(chain[..k]) + ([current.message] + current.innerMessages);
      messages := KeepDistinct(messages, ChainMessages(chain[..k]), [current.message] + current.innerMessages);
      k := k + 1;
    }
    assert chain[..k] == chain;
    text := Join(messages, " | ");
  }

  // ---------------------------------------------------------------------------------------
  // Create Payment

  const CustomerRequired := "Customer is required."
  const AmountRequired := "Transaction amount must be greater than zero."
  const PaymentMethodRequired := "Payment method is required."
  const CashAccountRequired := "Cash account is required."
  const PeriodRequired := "Application period is required."
  const PaymentCreationFailed := "Failed to create payment: "

  /** The exception raised when an invoice cannot be attached to the payment. */
  function CouldNotAdd(refNbr: string): Fault {
    Fault("Could not add Invoice " + refNbr + " to the payment. Check for Branch or Customer mismatches.", None)
  }

  /** What "Create Payment" does. */
  datatype CommitResult =
    | NotAllowed                                            // returns without doing anything
    | Rejected(message: string)                             // a required field is missing; nothing is written
    | Created(txn: StanbicBankTxn, request: PaymentRequest) // recorded as Processed; the screen redirects
    | Failed(txn: StanbicBankTxn, raised: string)           // recorded as Error; `raised` is shown

  /** The first missing required field, in the order the action checks them: customer,
      positive amount, payment method, cash account, period. */
  function MissingField(txn: StanbicBankTxn): (r: Option<string>)
    ensures r.None? <==>
      && txn.customerId.Some? && txn.transAmount.Some? && txn.transAmount.value > 0
      && txn.paymentMethodId != "" && txn.cashAccountId.Some? && txn.adjFinPeriodId != ""
    ensures txn.customerId.None? ==> r == Some(CustomerRequired)
    ensures r == Some(AmountRequired) ==> txn.customerId.Some?
    ensures r == Some(PaymentMethodRequired) ==>
      txn.customerId.Some? && txn.transAmount.Some? && txn.transAmount.value > 0
    ensures r == Some(CashAccountRequired) ==>
      txn.customerId.Some? && txn.transAmount.Some? && txn.transAmount.value > 0 && txn.paymentMethodId != ""
    ensures r == Some(PeriodRequired) ==>
      && txn.customerId.Some? && txn.transAmount.Some? && txn.transAmount.value > 0
      && txn.paymentMethodId != "" && txn.cashAccountId.Some?
    ensures r == Some(CustomerRequired) ==> txn.customerId.None?
    ensures r == Some(AmountRequired) ==> txn.transAmount.None? || txn.transAmount.value <= 0
    ensures r == Some(PaymentMethodRequired) ==> txn.paymentMethodId == ""
    ensures r == Some(CashAccountRequired) ==> txn.cashAccountId.None?
    ensures r == Some(PeriodRequired) ==> txn.adjFinPeriodId == ""
    ensures r.Some? ==> r.value in {CustomerRequired, AmountRequired, PaymentMethodRequired, CashAccountRequired, PeriodRequired}
  {
    if txn.customerId.None? then Some(CustomerRequired)
    else if txn.transAmount.None? || txn.transAmount.value <= 0 then Some(AmountRequired)
    else if txn.paymentMethodId == "" then Some(PaymentMethodRequired)
    else if txn.cashAccountId.None? then Some(CashAccountRequired)
    else if txn.adjFinPeriodId == "" then Some(PeriodRequired)
    else None
  }

  /** A line that becomes an application line: ticked and holding money. */
  predicate Funded(l: Line) {
    l.selected && l.curyApplAmt > 0
  }

  /** The application line a funded line becomes. */
  function AdjustmentOf(l: Line): Adjustment {
    Adjustment(l.key.docType, l.key.refNbr, Some(l.curyApplAmt))
  }

  /** The application lines, one per funded line and in the order of the lines: exactly the
      funded lines become application lines. */
  function AdjustmentsFor(lines: seq<Line>): (r: seq<Adjustment>)
    ensures |r| <= |lines|
    ensures forall a :: a in r <==> exists j :: 0 <= j < |lines| && Funded(lines[j]) && a == AdjustmentOf(lines[j])
    ensures forall k :: 0 <= k < |r| ==> r[k].curyAdjgAmt.Some? && r[k].curyAdjgAmt.value > 0
  {
    if |lines| == 0 then []
    else
      var rest := AdjustmentsFor(lines[1..]);
      assert forall j :: 1 <= j < |lines| ==> lines[j] == lines[1..][j - 1];
      (if Funded(lines[0]) then [AdjustmentOf(lines[0])] else []) + rest
  }

  /** The filter keeps the order of the lines: the application lines of consecutive stretches
      of lines follow one another, and a single line yields its own application line exactly
      when it is funded. */
  lemma {:induction false} AdjustmentsForConcat(a: seq<Line>, b: seq<Line>)
    ensures AdjustmentsFor(a + b) == AdjustmentsFor(a) + AdjustmentsFor(b)
    ensures |a| == 1 ==> AdjustmentsFor(a) == (if Funded(a[0]) then [AdjustmentOf(a[0])] else [])
  {
    if |a| == 0 {
      assert a + b == b;
    } else {
      assert (a + b)[1..] == a[1..] + b;
      AdjustmentsForConcat(a[1..], b);
      if |a| == 1 {
        assert a[1..] == [];
      }
    }
  }

  /** The total the application lines apply. */
  function AdjustmentTotal(adjustments: seq<Adjustment>): int {
    if |adjustments| == 0 then 0
    else adjustments[0].curyAdjgAmt.GetOr(0) + AdjustmentTotal(adjustments[1..])
  }

  /** On sound lines the application lines apply exactly the selected total. */
  lemma {:induction false} AdjustmentTotalIsSelectedSum(lines: seq<Line>)
    requires forall j :: 0 <= j < |lines| ==> LineOk(lines[j])
    ensures AdjustmentTotal(AdjustmentsFor(lines)) == SelectedSum(lines)
  {
    if |lines| > 0 {
      assert LineOk(lines[0]);
      AdjustmentTotalIsSelectedSum(lines[1..]);
      var head := if Funded(lines[0]) then [AdjustmentOf(lines[0])] else [];
      var rest := AdjustmentsFor(lines[1..]);
      if |head| == 1 {
        assert (head + rest)[1..] == rest;
      } else {
        assert head + rest == rest;
      }
    }
  }

  /** The payment document for a transaction that passed the field checks. */
  function PaymentFor(txn: StanbicBankTxn, lines: seq<Line>): (r: PaymentRequest)
    requires txn.customerId.Some?
    ensures r.customerId == txn.customerId.value
    ensures r.paymentMethodId == txn.paymentMethodId && r.cashAccountId == txn.cashAccountId
    ensures r.curyOrigDocAmt == txn.transAmount
    ensures r.adjDate == txn.adjDate
    ensures r.extRefNbr == "" && r.docDesc == txn.paymentDetails
    ensures r.adjustments == AdjustmentsFor(lines)
  {
    PaymentRequest(
      customerId := txn.customerId.value,
      paymentMethodId := txn.paymentMethodId,
      cashAccountId := txn.cashAccountId,
      curyOrigDocAmt := txn.transAmount,
      adjDate := txn.adjDate,
      extRefNbr := "",
      docDesc := txn.paymentDetails,
      adjustments := AdjustmentsFor(lines))
  }

  /** The position of the first application line the ledger refuses to attach, if any; the
      lines before it were all attached. */
  function FirstUnattachable(adjustments: seq<Adjustment>, attach: Adjustment -> bool): (r: Option<nat>)
    ensures r.None? <==> forall k :: 0 <= k < |adjustments| ==> attach(adjustments[k])
    ensures r.Some? ==> r.value < |adjustments| && !attach(adjustments[r.value])
    ensures r.Some? ==> forall m :: 0 <= m < r.value ==> attach(adjustments[m])
  {
    if |adjustments| == 0 then None
    else if !attach(adjustments[0]) then Some(0)
    else
      assert forall k :: 1 <= k < |adjustments| ==> adjustments[k] == adjustments[1..][k - 1];
      match FirstUnattachable(adjustments[1..], attach)
      case None => None
      case Some(k) => Some(k + 1)
  }

  /** The failure path: the record becomes Error with the truncated text, and the action
      raises "Failed to create payment: " followed by that text. */
  function FailWith(txn: StanbicBankTxn, fault: Fault): CommitResult {
    var stored := ErrorText(fault);
    Failed(txn.(status := StatusError, errorMessage := Some(stored)), PaymentCreationFailed + stored)
  }

  /** The "Create Payment" action on the transaction and the lines the view yields. */
  function CreatePayment(txn: StanbicBankTxn, lines: seq<Line>, ledger: Ledger): (r: CommitResult)
    ensures r.NotAllowed? <==> !StatusAllowsCommit(txn)
    ensures r.Rejected? <==> StatusAllowsCommit(txn) && MissingField(txn).Some?
    ensures r.Rejected? ==> r.message == MissingField(txn).value
    ensures r.Created? ==>
      && r.request == PaymentFor(txn, lines)
      && (forall k :: 0 <= k < |r.request.adjustments| ==> ledger.attach(r.request.adjustments[k]))
      && ledger.save(r.request).Saved?
      && r.txn == txn.(status := StatusProcessed, paymentRefNbr := ledger.save(r.request).refNbr,
                       paymentDocType := ledger.save(r.request).docType, errorMessage := None)
    ensures r.Failed? ==>
      && StatusAllowsCommit(txn) && MissingField(txn).None?
      && r.txn.status == StatusError
      && r.txn == txn.(status := StatusError, errorMessage := r.txn.errorMessage)
      && r.txn.errorMessage.Some? && |r.txn.errorMessage.value| <= MaxErrorLength
      && r.raised == PaymentCreationFailed + r.txn.errorMessage.value
    ensures StatusAllowsCommit(txn) && MissingField(txn).None? ==>
      var request := PaymentFor(txn, lines);
      var refused := FirstUnattachable(request.adjustments, ledger.attach);
      if ledger.prepare(request).Some? then
        r.Failed? && r.txn.errorMessage == Some(ErrorText(ledger.prepare(request).value))
      else if refused.Some? then
        r.Failed? && r.txn.errorMessage == Some(ErrorText(CouldNotAdd(request.adjustments[refused.value].adjdRefNbr)))
      else if ledger.save(request).SaveFailed? then
        r.Failed? && r.txn.errorMessage == Some(ErrorText(ledger.save(request).fault))
      else r.Created?
  {
    if !StatusAllowsCommit(txn) then NotAllowed
    else if MissingField(txn).Some? then Rejected(MissingField(txn).value)
    else
      var request := PaymentFor(txn, lines);
      match ledger.prepare(request)
      case Some(fault) => FailWith(txn, fault)
      case None =>
        match FirstUnattachable(request.adjustments, ledger.attach)
        case Some(k) => FailWith(txn, CouldNotAdd(request.adjustments[k].adjdRefNbr))
        case None =>
          match ledger.save(request)
          case Saved(refNbr, docType) =>
            Created(txn.(status := StatusProcessed, paymentRefNbr := refNbr, paymentDocType := docType,
                         errorMessage := None), request)
          case SaveFailed(fault) => FailWith(txn, fault)
  }

  /** A created payment never applies more than the payment amount, as long as the lines
      kept the session invariant. */
  lemma CreatedPaymentStaysWithinAmount(txn: StanbicBankTxn, lines: seq<Line>, ledger: Ledger)
    requires SessionOk(AmountOrZero(txn), lines)
    requires CreatePayment(txn, lines, ledger).Created?
    ensures var request := CreatePayment(txn, lines, ledger).request;
      request.curyOrigDocAmt.Some? && AdjustmentTotal(request.adjustments) <= request.curyOrigDocAmt.value
  {
    AdjustmentTotalIsSelectedSum(lines);
  }

  /** A processed transaction is never committed again, and its payment can be viewed. */
  lemma CreatedIsFinal(txn: StanbicBankTxn, lines: seq<Line>, ledger: Ledger, lines': seq<Line>, ledger': Ledger)
    requires CreatePayment(txn, lines, ledger).Created?
    ensures CreatePayment(CreatePayment(txn, lines, ledger).txn, lines', ledger').NotAllowed?
    ensures !CreatePaymentEnabled(CreatePayment(txn, lines, ledger).txn)
    ensures CreatePayment(txn, lines, ledger).txn.paymentRefNbr != "" ==>
      ViewPaymentEnabled(CreatePayment(txn, lines, ledger).txn)
  {
  }

  /** A failed attempt can be retried: once the ledger accepts the payment, the same
      transaction is created and recorded as Processed. */
  lemma FailedCanBeRetried(txn: StanbicBankTxn, lines: seq<Line>, ledger: Ledger, ledger': Ledger)
    requires CreatePayment(txn, lines, ledger).Failed?
    requires ledger'.prepare(PaymentFor(txn, lines)).None?
    requires forall k :: 0 <= k < |AdjustmentsFor(lines)| ==> ledger'.attach(AdjustmentsFor(lines)[k])
    requires ledger'.save(PaymentFor(txn, lines)).Saved?
    ensures CreatePayment(CreatePayment(txn, lines, ledger).txn, lines, ledger').Created?
    ensures CreatePayment(CreatePayment(txn, lines, ledger).txn, lines, ledger').txn.status == StatusProcessed
  {
    var failed := CreatePayment(txn, lines, ledger).txn;
    assert PaymentFor(failed, lines) == PaymentFor(txn, lines);
  }

  /** An enabled "Create Payment" button passes the status gate and the customer, cash-account
      and period checks; the action can still refuse a missing amount or payment method,
      which the button does not look at. */
  lemma EnabledButtonChecks(txn: StanbicBankTxn, lines: seq<Line>, ledger: Ledger)
    requires CreatePaymentEnabled(txn)
    ensures !CreatePayment(txn, lines, ledger).NotAllowed?
    ensures CreatePayment(txn, lines, ledger).Rejected? ==>
      CreatePayment(txn, lines, ledger).message in {AmountRequired, PaymentMethodRequired}
  {
  }
}

=== FILE: records.dfy ===
/** The staged bank transaction (`StanbicBankTxn`), the payment document the ledger is asked
    to create, and the ledger itself as an oracle.

    Conventions: amounts are integers in ten-thousandths (the `PXDecimal(4)` scale); a string
    field that the integration only ever reads through `string.IsNullOrEmpty` is a `string` in
    which "" stands for `null`; every other nullable field is an `Option`. */
module Records {
  import opened Wrappers

  const StatusNew := "New"
  const StatusProcessed := "Processed"
  const StatusError := "Error"

  /** Currency used when the provider's amount carries no currency token. */
  const DefaultCurrency := "KES"

  /** `ARDocType.Invoice` and `ARDocType.Payment`. */
  const InvoiceDocType := "INV"
  const PaymentDocType := "PMT"

  /** One staged payment notification, keyed by the provider's `transId`. */
  datatype StanbicBankTxn = StanbicBankTxn(
    transId: string,
    transactionType: string,
    transAmount: Option<int>,
    currency: string,
    billRefNumber: string,
    msisdn: string,
    status: string,
    rawPayload: string,
    customerId: Option<int>,
    paymentMethodId: string,
    cashAccountId: Option<int>,
    adjDate: Option<int>,
    adjFinPeriodId: string,
    paymentDetails: Option<string>,
    invoiceRefNbr: string,
    paymentDocType: string,
    paymentRefNbr: string,
    errorMessage: Option<string>)

  /** The staging table: at most one record per transaction id. */
  type Store = map<string, StanbicBankTxn>

  /** `txn.TransAmount ?? 0m`. */
  function AmountOrZero(txn: StanbicBankTxn): int {
    txn.transAmount.GetOr(0)
  }

  /** One application line of a payment (`ARAdjust`). */
  datatype Adjustment = Adjustment(adjdDocType: string, adjdRefNbr: string, curyAdjgAmt: Option<int>)

  /** The header fields the integration sets on a new `ARPayment`, plus its application lines.
      A field the caller leaves unset is "" or `None`. */
  datatype PaymentRequest = PaymentRequest(
    customerId: int,
    paymentMethodId: string,
    cashAccountId: Option<int>,
    curyOrigDocAmt: Option<int>,
    adjDate: Option<int>,
    extRefNbr: string,
    docDesc: Option<string>,
    adjustments: seq<Adjustment>)

  /** An exception thrown by the ledger: its message and its inner exception's message. */
  datatype Fault = Fault(message: string, innerMessage: Option<string>)

  /** What saving the payment did: the new document's keys, or the exception it threw. */
  datatype SaveResult = Saved(refNbr: string, docType: string) | SaveFailed(fault: Fault)

  /** The accounts-receivable ledger (`ARPaymentEntry`), which this model does not contain,
      as three oracles: `prepare` is the exception, if any, thrown while the payment header
      is inserted and its fields are set; `attach` says whether inserting an application line
      for an invoice yields a row; `save` is the outcome of saving the document. */
  datatype Ledger = Ledger(
    prepare: PaymentRequest -> Option<Fault>,
    attach: Adjustment -> bool,
    save: PaymentRequest -> SaveResult)

  /** `PXDatabase.Update<StanbicBankTxn>(status := s WHERE TransID = id)`: no row matches an
      unknown id, and nothing but the status changes. */
  function SetStatus(store: Store, id: string, status: string): (r: Store)
    ensures r.Keys == store.Keys
    ensures id in store ==> r[id] == store[id].(status := status)
    ensures forall k :: k in store && k != id ==> r[k] == store[k]
  {
    if id in store then store[id := store[id].(status := status)] else store
  }
}

=== FILE: session.dfy ===
/** A reconciliation session: the lines proposed when the screen opens, followed by any
    sequence of operator actions, each of which recomputes the transaction's totals. */
module Session {
  import opened Wrappers
  import opened Allocation

  /** What the operator can do to the lines. */
  datatype Action =
    | ToggleLine(index: nat, selected: bool)
    | TypeAmount(index: nat, amount: Option<int>)
    | ClearSelection

  /** One action. An action on a line that does not exist, or an amount the check refuses,
      leaves the lines as they were. */
  function Step(transAmount: int, lines: seq<Line>, action: Action): (r: seq<Line>)
    ensures |r| == |lines|
    ensures forall j :: 0 <= j < |lines| ==> r[j].key == lines[j].key && r[j].curyDocBal == lines[j].curyDocBal
  {
    match action
    case ToggleLine(i, selected) =>
      if i < |lines| then SetSelected(transAmount, lines, i, selected) else lines
    case TypeAmount(i, amount) =>
      if i < |lines| then
        match EditAmount(transAmount, lines, i, amount)
        case Success(updated) => updated
        case Failure(_) => lines
      else lines
    case ClearSelection =>
      ClearAllocation(lines)
  }

  /** The actions applied in order. */
  function Run(transAmount: int, lines: seq<Line>, actions: seq<Action>): seq<Line>
    decreases |actions|
  {
    if |actions| == 0 then lines else Run(transAmount, Step(transAmount, lines, actions[0]), actions[1..])
  }

  lemma StepKeepsSessionOk(transAmount: int, lines: seq<Line>, action: Action)
    requires SessionOk(transAmount, lines)
    ensures SessionOk(transAmount, Step(transAmount, lines, action))
  {
    match action
    case ToggleLine(i, selected) =>
      if i < |lines| {
        SetSelectedKeepsSessionOk(transAmount, lines, i, selected);
      }
    case TypeAmount(i, amount) =>
      if i < |lines| && EditAmount(transAmount, lines, i, amount).Success? {
        EditAmountKeepsSessionOk(transAmount, lines, i, amount);
      }
    case ClearSelection =>
      ClearAllocationKeepsSessionOk(transAmount, lines);
  }

  /** The session invariant holds after every action, whatever the operator does. */
  lemma {:induction false} RunKeepsSessionOk(transAmount: int, lines: seq<Line>, actions: seq<Action>)
    requires SessionOk(transAmount, lines)
    ensures SessionOk(transAmount, Run(transAmount, lines, actions))
    decreases |actions|
  {
    if |actions| > 0 {
      StepKeepsSessionOk(transAmount, lines, actions[0]);
      RunKeepsSessionOk(transAmount, Step(transAmount, lines, actions[0]), actions[1..]);
    }
  }

  /** From the moment the screen opens, through any sequence of operator actions: every line
      stays within its invoice balance and the selected lines within the payment. */
  lemma OpenedSessionStaysOk(transAmount: int, invoices: seq<Invoice>, cache: map<InvoiceKey, Line>, actions: seq<Action>)
    requires transAmount >= 0 && InvoicesOk(invoices) && CacheOk(cache)
    requires CachedSelectedSum(invoices, cache) <= transAmount
    ensures SessionOk(transAmount, Run(transAmount, AllocateCorrected(transAmount, invoices, cache).lines, actions))
  {
    AllocateCorrectedIsSessionOk(transAmount, invoices, cache);
    RunKeepsSessionOk(transAmount, AllocateCorrected(transAmount, invoices, cache).lines, actions);
  }

  /** The screen working through the operator's actions one at a time, recomputing
      `TotalApplied` and `Unallocated` after each (every handler ends with `CalculateTotals`). */
  method Operate(transAmount: int, lines: seq<Line>, actions: seq<Action>)
    returns (final: seq<Line>, totalApplied: int, unallocated: int)
    requires SessionOk(transAmount, lines)
    ensures final == Run(transAmount, lines, actions)
    ensures SessionOk(transAmount, final)
    ensures totalApplied == SelectedSum(final)
    ensures 0 <= totalApplied <= transAmount
    ensures unallocated == transAmount - totalApplied
  {
    final := lines;
    totalApplied, unallocated := CalculateTotals(transAmount, final);
    var k := 0;
    while k < |actions|
      invariant 0 <= k <= |actions|
      invariant SessionOk(transAmount, final)
      invariant Run(transAmount, final, actions[k..]) == Run(transAmount, lines, actions)
      invariant totalApplied == SelectedSum(final) && unallocated == transAmount - totalApplied
    {
      assert actions[k..][1..] == actions[k + 1..];
      StepKeepsSessionOk(transAmount, final, actions[k]);
      final := Step(transAmount, final, actions[k]);
      totalApplied, unallocated := CalculateTotals(transAmount, final);
      k := k + 1;
    }
    SelectedSumNonNegative(final);
  }
}

=== FILE: text.dfy ===
/** The .NET string operations the integration relies on: `string.IsNullOrWhiteSpace`,
    `string.Split(char)`, `string.Join` and prefix truncation with `Substring(0, n)`. */
module Text {

  /** `Char.IsWhiteSpace`: the characters Unicode marks as White_Space. */
  predicate IsWhiteSpace(c: char) {
    || c == ' '
    || ('\t' <= c <= '\r')
    || c == '\U{0085}' || c == '\U{00A0}' || c == '\U{1680}'
    || ('\U{2000}' <= c <= '\U{200A}')
    || c == '\U{2028}' || c == '\U{2029}' || c == '\U{202F}' || c == '\U{205F}' || c == '\U{3000}'
  }

  /** `string.IsNullOrWhiteSpace`, scanning from the front; the empty string stands for `null`.
      A string is blank exactly when every character is white space. */
  predicate IsNullOrWhiteSpace(s: string)
    ensures IsNullOrWhiteSpace(s) <==> forall i :: 0 <= i < |s| ==> IsWhiteSpace(s[i])
  {
    if |s| == 0 then true
    else
      assert forall i :: 1 <= i < |s| ==> s[i] == s[1..][i - 1];
      IsWhiteSpace(s[0]) && IsNullOrWhiteSpace(s[1..])
  }

  /** `s.Split(sep)`: the maximal separator-free pieces of `s`, empty pieces included. */
  function Split(s: string, sep: char): (parts: seq<string>)
    ensures |parts| >= 1
    ensures forall k :: 0 <= k < |parts| ==> sep !in parts[k]
  {
    if |s| == 0 then [""]
    else
      var rest := Split(s[1..], sep);
      if s[0] == sep then [""] + rest
      else [[s[0]] + rest[0]] + rest[1..]
  }

  /** Splitting loses nothing: joining the pieces back gives the original string. */
  lemma {:induction false} JoinSplit(s: string, sep: char)
    ensures Join(Split(s, sep), [sep]) == s
  {
    if |s| == 0 {
    } else {
      var rest := Split(s[1..], sep);
      JoinSplit(s[1..], sep);
      if s[0] == sep {
        assert ([""] + rest)[1..] == rest;
      } else if |rest| == 1 {
        assert Join(Split(s, sep), [sep]) == [s[0]] + rest[0];
      } else {
        var parts := [[s[0]] + rest[0]] + rest[1..];
        assert parts[1..] == rest[1..];
        assert Join(parts, [sep]) == [s[0]] + (rest[0] + [sep] + Join(rest[1..], [sep]));
      }
    }
  }

  /** A separator-free string is a single piece. */
  lemma {:induction false} SplitWithoutSeparator(s: string, sep: char)
    requires sep !in s
    ensures Split(s, sep) == [s]
  {
    if |s| > 0 {
      assert sep !in s[1..] by {
        forall k | 0 <= k < |s[1..]| ensures s[1..][k] != sep {
          assert s[1..][k] == s[k + 1];
        }
      }
      SplitWithoutSeparator(s[1..], sep);
      assert [s[0]] + s[1..] == s;
    }
  }

  /** The first piece ends at the first separator; the other pieces come from what follows it. */
  lemma {:induction false} SplitAtFirstSeparator(s: string, sep: char, i: nat)
    requires i < |s| && s[i] == sep && sep !in s[..i]
    ensures Split(s, sep) == [s[..i]] + Split(s[i + 1..], sep)
  {
    if i == 0 {
      assert s[1..] == s[i + 1..];
    } else {
      assert s[0] != sep by { assert s[..i][0] == s[0]; }
      assert s[1..][..i - 1] == s[..i][1..];
      SplitAtFirstSeparator(s[1..], sep, i - 1);
      assert s[1..][i..] == s[i + 1..];
      assert [s[0]] + s[1..][..i - 1] == s[..i];
    }
  }

  /** The first piece of `s` is its longest separator-free prefix. */
  lemma FirstPiece(s: string, sep: char, j: nat)
    requires j <= |s| && sep !in s[..j] && (j == |s| || s[j] == sep)
    ensures Split(s, sep)[0] == s[..j]
  {
    if j == |s| {
      assert s[..j] == s;
      SplitWithoutSeparator(s, sep);
    } else {
      SplitAtFirstSeparator(s, sep, j);
    }
  }

  /** Pieces without the separator survive a join followed by a split. */
  lemma {:induction false} SplitJoin(parts: seq<string>, sep: char)
    requires |parts| >= 1
    requires forall k :: 0 <= k < |parts| ==> sep !in parts[k]
    ensures Split(Join(parts, [sep]), sep) == parts
  {
    if |parts| == 1 {
      SplitWithoutSeparator(parts[0], sep);
    } else {
      var tail := Join(parts[1..], [sep]);
      var s := parts[0] + [sep] + tail;
      var i := |parts[0]|;
      assert s[..i] == parts[0];
      assert s[i + 1..] == tail;
      SplitAtFirstSeparator(s, sep, i);
      SplitJoin(parts[1..], sep);
      assert [parts[0]] + parts[1..] == parts;
    }
  }

  /** The number of characters in all the pieces together. */
  function TotalLength(parts: seq<string>): nat {
    if |parts| == 0 then 0 else |parts[0]| + TotalLength(parts[1..])
  }

  /** `string.Join(sep, parts)`; the empty list joins to "", and a single-character separator
      `c` is `[c]`. The result starts with the first piece. */
  function Join(parts: seq<string>, sep: string): (r: string)
    ensures |parts| == 0 ==> r == ""
    ensures |parts| >= 1 ==> parts[0] <= r
  {
    if |parts| == 0 then ""
    else if |parts| == 1 then parts[0]
    else parts[0] + sep + Join(parts[1..], sep)
  }

  /** A join holds every piece and one separator between each two pieces, nothing more. */
  lemma {:induction false} JoinLength(parts: seq<string>, sep: string)
    requires |parts| >= 1
    ensures |Join(parts, sep)| == TotalLength(parts) + (|parts| - 1) * |sep|
  {
    if |parts| > 1 {
      JoinLength(parts[1..], sep);
    }
  }

  /** `if (s.Length > n) s = s.Substring(0, n)`. */
  function Truncate(s: string, n: nat): (r: string)
    ensures |r| <= n
    ensures r <= s
    ensures |s| <= n ==> r == s
    ensures |s| > n ==> |r| == n
  {
    if |s| > n then s[..n] else s
  }
}

=== FILE: webhook.dfy ===
/** The provider's payment notification arriving at the webhook: the body is deserialized, a
    transaction id already staged is answered as a duplicate, the amount text is split into
    currency and amount, and a new record is staged with status "New". */
module Webhook {
  import opened Wrappers
  import opened Text
  import opened Records

  /** The notification's fields (`StanbicPayload`); a missing field is "". */
  datatype Payload = Payload(
    transactionType: string,
    transId: string,
    transAmount: string,
    billRefNumber: string,
    msisdn: string)

  /** What the handler calls but this model does not contain: the JSON deserializer (a failure
      carries the exception's message), the culture-dependent `decimal.TryParse` (already at
      the four-decimal scale), and the exception, if any, the staging insert throws. */
  datatype Intake = Intake(
    deserialize: string -> Result<Payload, string>,
    tryParse: string -> Option<int>,
    insertFault: StanbicBankTxn -> Option<string>)

  // ---------------------------------------------------------------------------------------
  // Amount text

  datatype ParsedAmount = ParsedAmount(amount: int, currency: string)

  /** The amount text ("KES 1.00") split on single spaces: with two or more pieces the first is
      the currency and the second the amount; a single piece is the amount in the default
      currency; an unparsable amount is 0, and so is a missing one. */
  function ParseTransAmount(text: string, tryParse: string -> Option<int>): (r: ParsedAmount)
    ensures text == "" ==> r == ParsedAmount(0, DefaultCurrency)
    ensures r.currency == DefaultCurrency || r.currency < text
  {
    if text == "" then ParsedAmount(0, DefaultCurrency)
    else
      var parts := Split(text, ' ');
      if |parts| > 1 then
        JoinSplit(text, ' ');
        assert text == parts[0] + [' '] + Join(parts[1..], [' ']);
        ParsedAmount(tryParse(parts[1]).GetOr(0), parts[0])
      else ParsedAmount(tryParse(parts[0]).GetOr(0), DefaultCurrency)
  }

  /** Amount text without a space is all amount, in the default currency. */
  lemma ParseWithoutSpace(text: string, tryParse: string -> Option<int>)
    requires text != "" && ' ' !in text
    ensures ParseTransAmount(text, tryParse) == ParsedAmount(tryParse(text).GetOr(0), DefaultCurrency)
  {
    SplitWithoutSeparator(text, ' ');
  }

  /** With a space at `i` (the first one) the currency is everything before it, and the amount
      is the text from just after it up to the next space or the end (`j`); anything after
      that is ignored. */
  lemma ParseAtFirstSpace(text: string, tryParse: string -> Option<int>, i: nat, j: nat)
    requires i < j <= |text|
    requires text[i] == ' ' && ' ' !in text[..i]
    requires ' ' !in text[i + 1..j] && (j == |text| || text[j] == ' ')
    ensures ParseTransAmount(text, tryParse) == ParsedAmount(tryParse(text[i + 1..j]).GetOr(0), text[..i])
  {
    SplitAtFirstSeparator(text, ' ', i);
    var after := text[i + 1..];
    assert after[..j - (i + 1)] == text[i + 1..j];
    FirstPiece(after, ' ', j - (i + 1));
  }

  /** Reading back a well-formed "<currency> <amount>" text gives the currency and the parse
      of the amount. */
  lemma ParseFormatted(currency: string, amountText: string, tryParse: string -> Option<int>)
    requires ' ' !in currency && ' ' !in amountText
    ensures ParseTransAmount(currency + " " + amountText, tryParse)
         == ParsedAmount(tryParse(amountText).GetOr(0), currency)
  {
    var text := currency + " " + amountText;
    var i := |currency|;
    assert text[..i] == currency;
    assert text[i + 1..] == amountText;
    assert text[i + 1..|text|] == amountText;
    ParseAtFirstSpace(text, tryParse, i, |text|);
  }

  // ---------------------------------------------------------------------------------------
  // Staging

  /** The record staged for a new notification; fields the webhook does not set are empty. */
  function NewRecord(json: string, payload: Payload, tryParse: string -> Option<int>): (r: StanbicBankTxn)
    ensures r.transId == payload.transId && r.status == StatusNew && r.rawPayload == json
    ensures r.transAmount == Some(ParseTransAmount(payload.transAmount, tryParse).amount)
    ensures r.currency == ParseTransAmount(payload.transAmount, tryParse).currency
    ensures r.customerId.None? && r.paymentRefNbr == "" && r.errorMessage.None?
  {
    var parsed := ParseTransAmount(payload.transAmount, tryParse);
    StanbicBankTxn(
      transId := payload.transId,
      transactionType := payload.transactionType,
      transAmount := Some(parsed.amount),
      currency := parsed.currency,
      billRefNumber := payload.billRefNumber,
      msisdn := payload.msisdn,
      status := StatusNew,
      rawPayload := json,
      customerId := None,
      paymentMethodId := "",
      cashAccountId := None,
      adjDate := None,
      adjFinPeriodId := "",
      paymentDetails := None,
      invoiceRefNbr := "",
      paymentDocType := "",
      paymentRefNbr := "",
      errorMessage := None)
  }

  /** The staging table after a notification and the text sent back. */
  datatype Ingest = Ingest(store: Store, reply: string)

  const SuccessReply := "Success"
  const DuplicateReply := "Success: Duplicate "
  const ErrorReply := "Error: "

  /** `ProcessWebhook`: a known id is a duplicate and changes nothing; a new id is staged;
      any exception is answered as an error. */
  function ProcessWebhook(json: string, store: Store, intake: Intake): (r: Ingest)
    ensures forall id :: id in store ==> id in r.store && r.store[id] == store[id]
    ensures forall id :: id in r.store && id !in store ==>
      intake.deserialize(json).Success? && id == intake.deserialize(json).value.transId
    ensures SuccessReply <= r.reply <==>
      && intake.deserialize(json).Success?
      && var payload := intake.deserialize(json).value;
         payload.transId in store || intake.insertFault(NewRecord(json, payload, intake.tryParse)).None?
    ensures intake.deserialize(json).Failure? ==> r == Ingest(store, ErrorReply + intake.deserialize(json).error)
    ensures r.store == store || r.reply == SuccessReply
    ensures r.store != store ==>
      var payload := intake.deserialize(json).value;
      r.store == store[payload.transId := NewRecord(json, payload, intake.tryParse)]
    ensures !(SuccessReply <= r.reply) ==> r.store == store && ErrorReply <= r.reply
    ensures intake.deserialize(json).Success? && intake.deserialize(json).value.transId in store ==>
      r == Ingest(store, DuplicateReply + intake.deserialize(json).value.transId)
    ensures intake.deserialize(json).Success? ==>
      var payload := intake.deserialize(json).value;
      var fault := intake.insertFault(NewRecord(json, payload, intake.tryParse));
      payload.transId !in store ==>
        && (fault.Some? ==> r.reply == ErrorReply + fault.value)
        && (fault.None? ==> r.reply == SuccessReply && payload.transId in r.store)
  {
    match intake.deserialize(json)
    case Failure(message) =>
      assert !(SuccessReply <= ErrorReply + message) by { assert (ErrorReply + message)[0] == 'E'; }
      Ingest(store, ErrorReply + message)
    case Success(payload) =>
      if payload.transId in store then Ingest(store, DuplicateReply + payload.transId)
      else
        var record := NewRecord(json, payload, intake.tryParse);
        match intake.insertFault(record)
        case Some(message) =>
          assert !(SuccessReply <= ErrorReply + message) by { assert (ErrorReply + message)[0] == 'E'; }
          Ingest(store, ErrorReply + message)
        case None => Ingest(store[payload.transId := record], SuccessReply)
  }

  /** The staging table after a request and the reply body, if one is written. */
  datatype Delivery = Delivery(store: Store, reply: Option<string>)

  /** `HandleAsync`: a blank body is ignored, with nothing staged and no reply written; any
      other body is processed and its reply written with status 200. */
  function HandleAsync(body: string, store: Store, intake: Intake): (r: Delivery)
    ensures IsNullOrWhiteSpace(body) ==> r == Delivery(store, None)
    ensures !IsNullOrWhiteSpace(body) ==>
      && r.reply == Some(ProcessWebhook(body, store, intake).reply)
      && r.store == ProcessWebhook(body, store, intake).store
  {
    if IsNullOrWhiteSpace(body) then Delivery(store, None)
    else
      var ingest := ProcessWebhook(body, store, intake);
      Delivery(ingest.store, Some(ingest.reply))
  }

  /** The same notification delivered twice stages at most one record. Once the first delivery
      has staged the record or found it staged, the second changes nothing and is answered as
      a duplicate, however its insert would behave; with the insert behaving as it did the
      first time, the second delivery never changes the table. */
  lemma IngestIsIdempotent(json: string, store: Store, intake: Intake, insertFault': StanbicBankTxn -> Option<string>)
    ensures var first := ProcessWebhook(json, store, intake);
      var second := ProcessWebhook(json, first.store, intake.(insertFault := insertFault'));
      && (SuccessReply <= first.reply ==>
            && second.store == first.store
            && second.reply == DuplicateReply + intake.deserialize(json).value.transId)
      && (forall id :: id in second.store && id !in store ==> id == intake.deserialize(json).value.transId)
      && ProcessWebhook(json, first.store, intake).store == first.store
  {
    var first := ProcessWebhook(json, store, intake);
    if intake.deserialize(json).Success? {
      var payload := intake.deserialize(json).value;
      if SuccessReply <= first.reply {
        assert payload.transId in first.store;
      }
    }
  }
}

=== FILE: wrappers.dfy ===
/** Nullable values, results with an error, and pass/fail outcomes, shared by every module. */
module Wrappers {

  /** A nullable value: `None` stands for C#'s `null`. */
  datatype Option<+T> = None | Some(value: T) {

    /** The `?? default` operator. */
    function GetOr(default: T): T {
      match this
      case Some(v) => v
      case None => default
    }
  }

  /** The value of an operation that may throw: `Failure` carries what was thrown. */
  datatype Result<+T, +E> = Success(value: T) | Failure(error: E)

  /** A check that passes or fails with an error value. */
  datatype Outcome<+E> = Pass | Fail(error: E)
}
